=== FILE: README.md ===
# FreeImage bitmap object model in Dafny

This project models the bitmap object of FreeImage (`FIBITMAP`) as defined in
`Source/FreeImage/BitmapAccess.cpp`, and proves properties of the model. A bitmap
is modelled as an immutable record. The record holds:

- the object header (`FREEIMAGEHEADER`): image type, background colour, transparency
  flag, table and count, ICC profile, metadata store, thumbnail, and external buffer;
- the info header (`BITMAPINFOHEADER`);
- the palette or the 16-bit channel masks.

Every library call becomes a pure function from the old record to the new one.

Files and modules:

- `wrappers.dfy`: `Option`, plus the C integer ranges used in signatures (`Byte`,
  `UInt16`, `UInt32`, `Int32`).
- `layout.dfy` (`Layout`): the block layout arithmetic.
  - `FreeImage_GetInternalImageSize`.
  - The address computations of `FreeImage_GetInfoHeader` and `FreeImage_GetBits`.
  - The line, pitch and palette-size helpers.
  - `sizeof(FREEIMAGEHEADER)` depends on the platform and is the parameter `hdr`.
  - `SIZE_MAX` is that of a 64-bit platform.
- `keyorder.dfy` (`KeyOrder`): the key order of `std::map<std::string, …>`. Strings
  are compared lexicographically, and a proper prefix comes first. Also the
  ascending enumeration of a key set.
- `tagstore.dfy` (`TagStore`): the metadata store `model → (key → tag)`.
  - `FreeImage_SetMetadata`, `FreeImage_GetMetadata`, `FreeImage_GetMetadataCount`.
  - The iteration cursor of `FreeImage_FindFirstMetadata` / `FreeImage_FindNextMetadata`.
  - The model copy of `FreeImage_CloneMetadata`.
- `dib.dfy` (`Bitmaps`): the bitmap record and the allocation invariant `Valid`.
  - `FreeImage_AllocateBitmap`, reduced to argument normalisation and header
    initialisation.
  - The geometry, mask, background, transparency, resolution and ICC accessors.
  - `FreeImage_Clone` and `FreeImage_SetThumbnail`.
- `colorclass.dfy` (`ColorClass`): `FreeImage_GetColorType2`,
  `FreeImage_IsTransparent` and `FreeImage_GetChannelsNumber`.

External collaborators are parameters:

- `FreeImage_TagDataWidth` is the function `width: nat -> nat`.
- The IPTC tag-name lookup of `TagLib` is `iptcId: string -> int`.
- `CalculateUsedPaletteEntries`, `CalculateLine` and `CalculatePitch` live in
  `Utilities.h`, which is not part of this model. They are defined here as 2^bpp
  entries for 1 to 8 bits (0 otherwise), ⌈width·bpp/8⌉, and the line rounded up to
  a multiple of 4.
- The alpha scan of a 32-bit image is the boolean `alphaOpaque`.
- The block's base address is a parameter.

Where the documentation of the functions and the code disagree, the model follows
the code:

- A rejected `FreeImage_SetMetadata` still changes the store. It creates the
  model's (empty) tag map before it checks the tag.
- Tags are iterated in ascending key order, not in insertion order.
- `FreeImage_IsTransparent` ignores the stored flag of 32-bit standard bitmaps. It
  decides from the colour type alone.
- `FIT_RGBA32` bitmaps are never reported transparent.

## Model

| member | source | states |
|---|---|---|
| Layout.PadToAlignment | Source/FreeImage/BitmapAccess.cpp:216 | the padded offset is 16-aligned and less than 16 bytes past the unpadded one |
| Layout.PaletteEntries | Source/FreeImage/BitmapAccess.cpp:219-222 | a depth uses palette entries exactly when it is 1 to 8 bits, and never more than 256 |
| Layout.LineBytes | Source/FreeImage/BitmapAccess.cpp:230 | a line is the smallest whole number of bytes holding width·bpp bits |
| Layout.PitchOf | Source/FreeImage/BitmapAccess.cpp:230 | the pitch is a multiple of 4, at least the line and less than 4 bytes longer |
| Layout.InfoHeaderOffset | Source/FreeImage/BitmapAccess.cpp:215-217 | the info header lies after the object header and ends on a 16-byte boundary |
| Layout.PaletteOffset | Source/FreeImage/BitmapAccess.cpp:218-220 | the palette/mask region starts 16-aligned, after both headers |
| Layout.HeaderOnlySize | Source/FreeImage/BitmapAccess.cpp:215-224 | the header-only block is 16-aligned and holds both headers, the palette and the masks |
| Layout.InternalImageSize | Source/FreeImage/BitmapAccess.cpp:213-257 | a full size never exceeds SIZE_MAX − 8·16; a header-only size is positive and aligned; a non-zero full size is the header-only size plus the DWORD-rounded pitch times the height, and a non-zero full size with rows has a pitch below 2^32 |
| Layout.PitchIsDwordFormula | Source/FreeImage/BitmapAccess.cpp:230-234 | the integer pitch equals the ⌊(bpp·width+31)/32⌋·4 formula of the overflow cross-check |
| Layout.FailureIsDistinguishable | Source/FreeImage/BitmapAccess.cpp:226-254 | the size is 0 exactly when the pitch does not fit an `unsigned` (with at least one row) or the full block would exceed the ceiling |
| Layout.CeilingOnlyGuardsTruncation | Source/FreeImage/BitmapAccess.cpp:226-254 | for 31-bit heights, depths up to 128 bits and a header of at most 64 KiB, the size is 0 exactly when the pitch was truncated: the ceiling is never the deciding test |
| Layout.FullSizeIsHeaderPlusRows | Source/FreeImage/BitmapAccess.cpp:226-230 | a successful full size is the header-only size plus pitch·height |
| Layout.MasksExcludePalette | Source/FreeImage/BitmapAccess.cpp:221-223 | at 16 bits no palette entries are used and the 12 mask bytes fit in the header-only block |
| Layout.InfoHeaderAddress | Source/FreeImage/BitmapAccess.cpp:1212-1220 | the info header lies at least `hdr` bytes into the block |
| Layout.PixelAddress | Source/FreeImage/BitmapAccess.cpp:667-671 | owned pixels start 16-aligned, after the info header and the palette |
| Layout.InfoHeaderAddressAgrees | Source/FreeImage/BitmapAccess.cpp:1212-1220 | on an aligned block the accessor finds the info header where the size calculation placed it |
| Layout.PixelAddressAgrees | Source/FreeImage/BitmapAccess.cpp:657-672 | on an aligned block the pixels start exactly where the header-only block ends |
| KeyOrder.LessTotal | Source/FreeImage/BitmapAccess.cpp:61 | two distinct keys are always ordered one way or the other |
| KeyOrder.SortedKeys | Source/FreeImage/BitmapAccess.cpp:61 | the iteration order of a tag map is strictly ascending and lists each key exactly once |
| KeyOrder.SortedUnique | Source/FreeImage/BitmapAccess.cpp:61 | any strictly ascending listing of a key set is that iteration order |
| TagStore.StoredTag | Source/FreeImage/BitmapAccess.cpp:1424-1462 | the stored copy carries the map key and the tag's type, count, length and value; in the IPTC model its ID is the looked-up ID truncated to 16 bits, 0xFFFF for an unknown name |
| TagStore.DeleteModel | Source/FreeImage/BitmapAccess.cpp:1473-1482 | a null key removes the model and leaves every other model as it was |
| TagStore.DeleteTag | Source/FreeImage/BitmapAccess.cpp:1413-1470 | a null tag removes that one key and changes no other lookup or model; on an absent model it changes nothing |
| TagStore.PutTag | Source/FreeImage/BitmapAccess.cpp:1418-1461 | the call succeeds iff count·width = length; on success the key maps to the stored copy; on failure no lookup changes, yet the model now exists |
| TagStore.SetMetadata | Source/FreeImage/BitmapAccess.cpp:1397-1485 | dispatches on null key and null tag; success iff the tag is consistent; other models are untouched and none appears or disappears; with a key, no other key of the model changes, and the model exists afterwards exactly when it did before or a tag was given; a null key removes exactly that model; tags stay keyed by their key |
| TagStore.GetMetadata | Source/FreeImage/BitmapAccess.cpp:1487-1509 | a tag is found iff a key is given and the model holds it |
| TagStore.Count | Source/FreeImage/BitmapAccess.cpp:1546-1563 | the count is the number of keys of the model, and 0 exactly when the model is absent or empty |
| TagStore.CountAfterPut | Source/FreeImage/BitmapAccess.cpp:1546-1563 | storing a tag raises the count by one exactly when the key was new |
| TagStore.CountAfterDelete | Source/FreeImage/BitmapAccess.cpp:1546-1563 | removing a key lowers the count by one exactly when it was present |
| TagStore.SetThenGet | Source/FreeImage/BitmapAccess.cpp:1397-1509 | after a successful set, get returns the tag under the requested key with the same value |
| TagStore.FailedSetKeepsEntries | Source/FreeImage/BitmapAccess.cpp:1418-1435 | a rejected tag changes no lookup and no count, but the model is created |
| TagStore.TagsInOrder | Source/FreeImage/BitmapAccess.cpp:1298-1325 | the map's tags, listed in ascending key order |
| TagStore.FindFirstAsWritten | Source/FreeImage/BitmapAccess.cpp:1271-1309 | as written: an absent model yields no handle; a present but empty one reads past the end; otherwise it yields the first tag and position 1 |
| TagStore.FindFirst | Source/FreeImage/BitmapAccess.cpp:1271-1309 | corrected: a first tag exists exactly when the count is positive, and it is the smallest key's tag |
| TagStore.FindNext | Source/FreeImage/BitmapAccess.cpp:1312-1334 | returns the tag at the cursor position and advances it, or fails once the position reaches the map size |
| TagStore.Drain | Source/FreeImage/BitmapAccess.cpp:1312-1334 | repeated FindNext from a cursor yields one tag per position left before the map size |
| TagStore.DrainIsRemainingTags | Source/FreeImage/BitmapAccess.cpp:1312-1334 | repeated FindNext from a cursor yields exactly the remaining tags in key order, and nothing past the end |
| TagStore.FindFirstAgrees | Source/FreeImage/BitmapAccess.cpp:1271-1309 | the corrected FindFirst agrees with the source wherever the source is defined |
| TagStore.IterationVisitsEveryTagOnce | Source/FreeImage/BitmapAccess.cpp:1271-1334 | FindFirst then FindNext until failure visit every tag once, in strictly ascending key order, as many as the count |
| TagStore.FailedSetThenFindFirstReadsPastEnd | Source/FreeImage/BitmapAccess.cpp:1418-1435 | a rejected tag aimed at a new model leaves an empty model on which the source's FindFirst reads past the end |
| TagStore.DeleteLastTagLeavesEmptyModel | Source/FreeImage/BitmapAccess.cpp:1464-1470 | deleting a model's only key leaves an empty model with the same hazard |
| TagStore.CopyModels | Source/FreeImage/BitmapAccess.cpp:1358-1385 | every source model except the animation one replaces the destination's; the other destination models stay |
| TagStore.CopyModelsIdempotent | Source/FreeImage/BitmapAccess.cpp:1358-1385 | copying twice equals copying once, and tags stay keyed by their key |
| Bitmaps.NormalizedDepth | Source/FreeImage/BitmapAccess.cpp:316-379 | only an unknown type is refused; FIT_BITMAP keeps an accepted depth and coerces any other to 8; every other type gets its own fixed width whatever depth is asked for; every depth is 1, 2, 4 or a whole number of bytes |
| Bitmaps.NormalizeIdempotent | Source/FreeImage/BitmapAccess.cpp:316-379 | normalising a normalised depth changes nothing |
| Bitmaps.Abs32 | Source/FreeImage/BitmapAccess.cpp:300-301 | abs gives the magnitude, except that INT_MIN stays negative |
| Bitmaps.AllocateBitmap | Source/FreeImage/BitmapAccess.cpp:297-478 | fails on a zero dimension, an unknown type or a zero external pitch. A result is valid, has the given type, the absolute dimensions and the normalised depth, clrImportant = clrUsed, the given external buffer and pitch, an empty ICC profile with no flags, the given masks at 16 bits, the grey ramp at 8 bits, an opaque transparency table, no background, no metadata, no thumbnail and 72 dpi |
| Bitmaps.AllocateSucceedsIff | Source/FreeImage/BitmapAccess.cpp:297-401 | allocation succeeds exactly when the argument checks pass and the size calculation does not report overflow |
| Bitmaps.HugeImageIsRefused | Source/FreeImage/BitmapAccess.cpp:396-401 | a 2^31−1 square image at 128 bits per pixel is refused |
| Bitmaps.TruncatedPitchIsRefused | Source/FreeImage/BitmapAccess.cpp:226-238 | one row of 2^30 pixels at 128 bits is refused, because its 2^34-byte pitch does not survive the `unsigned` pitch |
| Bitmaps.AllocatedPitchFits | Source/FreeImage/BitmapAccess.cpp:226-238 | every bitmap allocated with its own pixels has a pitch below 2^32 |
| Bitmaps.WrappedLine | Source/FreeImage/BitmapAccess.cpp:1160 | the 32-bit line computation stays below 2^29 bytes and is the byte ceiling of the bit count when nothing wraps |
| Bitmaps.GetLine | Source/FreeImage/BitmapAccess.cpp:1159-1161 | as written: the line is below 2^29 bytes, and it is ⌈width·bpp/8⌉ whenever width·bpp+7 fits in 32 bits |
| Bitmaps.WideLineWraps | Source/FreeImage/BitmapAccess.cpp:1159-1170 | a 2^28-pixel 32-bit row is allocated, yet its line and pitch read back as 0 bytes instead of 2^30 |
| Bitmaps.GetLineWide | Source/FreeImage/BitmapAccess.cpp:1159-1161 | corrected: the line is the smallest whole number of bytes holding width·bpp bits |
| Bitmaps.WideLineFillsBlock | Source/FreeImage/BitmapAccess.cpp:226-238 | with the corrected line, every owned allocation's line fits 32 bits and its padded rows run from the pixel address exactly to the end of the block |
| Bitmaps.WrappedPitchRoundTrip | Source/FreeImage/BitmapAccess.cpp:443-446 | a bitmap allocated around a caller's buffer reports the caller's pitch and buffer address |
| Bitmaps.GetPitch | Source/FreeImage/BitmapAccess.cpp:1164-1170 | a wrapped buffer reports its stored pitch verbatim; otherwise the pitch is a multiple of 4, at least the line and less than 4 bytes longer |
| Bitmaps.PitchMatchesLayout | Source/FreeImage/BitmapAccess.cpp:1159-1170 | without wrap-around, line and pitch agree with the layout calculator's |
| Bitmaps.GetBits | Source/FreeImage/BitmapAccess.cpp:657-672 | a header-only bitmap has no pixels; a wrapped buffer is returned as is; owned pixels are 16-aligned |
| Bitmaps.PixelsFillBlock | Source/FreeImage/BitmapAccess.cpp:213-257 | owned pixels start where the header-only block ends, and pitch·height bytes later the block ends |
| Bitmaps.RgbMasks | Source/FreeImage/BitmapAccess.cpp:266-269 | the stored masks are found exactly on 16-bit standard bitmaps, the only ones the allocator writes BI_BITFIELDS into |
| Bitmaps.RedMask | Source/FreeImage/BitmapAccess.cpp:871-884 | by depth: a 16-bit standard bitmap reports the red mask it was allocated with, a 24/32-bit one 0x00FF0000, lower depths and other types 0 |
| Bitmaps.GreenMask | Source/FreeImage/BitmapAccess.cpp:886-899 | by depth: the stored green mask at 16 bits, 0x0000FF00 at 24/32 bits, 0 otherwise |
| Bitmaps.BlueMask | Source/FreeImage/BitmapAccess.cpp:901-914 | by depth: the stored blue mask at 16 bits, 0x000000FF at 24/32 bits, 0 otherwise |
| Bitmaps.MasksRoundTrip | Source/FreeImage/BitmapAccess.cpp:473-478 | masks given to a 16-bit allocation are read back; 24/32-bit bitmaps report the BGRA masks and others none |
| Bitmaps.PaletteIndexOf | Source/FreeImage/BitmapAccess.cpp:939-950 | finds the first palette entry with the colour's RGB, or 0 when none matches |
| Bitmaps.GetBackgroundColor | Source/FreeImage/BitmapAccess.cpp:927-955 | a colour is returned iff one is set; its RGB is the stored one; its alpha is the first matching palette index of an 8-bit image, else 0 |
| Bitmaps.SetBackgroundColor | Source/FreeImage/BitmapAccess.cpp:958-974 | setting a colour marks it present with the given RGB; clearing marks it absent; nothing else changes |
| Bitmaps.BackgroundRoundTrip | Source/FreeImage/BitmapAccess.cpp:927-974 | a set colour is read back with the same RGB; a cleared one reads back as absent |
| Bitmaps.SetTransparent | Source/FreeImage/BitmapAccess.cpp:1008-1016 | the flag is stored at ≤ 8 and 32 bits and forced off otherwise; nothing else changes |
| Bitmaps.ClampCount | Source/FreeImage/BitmapAccess.cpp:1026 | a count is clamped into 0..256 |
| Bitmaps.SetTransparencyTable | Source/FreeImage/BitmapAccess.cpp:1024-1038 | acts only at ≤ 8 bits: the flag is set iff the clamped count is positive, the first count entries are copied (or 0xFF), and the rest of the table is kept |
| Bitmaps.SetTransparentIndex | Source/FreeImage/BitmapAccess.cpp:1061-1074 | a bitmap without colours in use is unchanged |
| Bitmaps.FirstZero | Source/FreeImage/BitmapAccess.cpp:1093-1098 | the first zero entry below the count, or −1 when there is none |
| Bitmaps.GetTransparentIndex | Source/FreeImage/BitmapAccess.cpp:1090-1099 | −1 iff no entry below the transparency count is zero; otherwise the first zero entry |
| Bitmaps.TransparentIndexRoundTrip | Source/FreeImage/BitmapAccess.cpp:1061-1099 | on a palettised image, setting index i and reading it back gives i if it is a palette index, −1 otherwise; the image is then transparent |
| Bitmaps.SetDotsPerMeterX | Source/FreeImage/BitmapAccess.cpp:1198-1202 | the X resolution reads back as set; nothing else changes |
| Bitmaps.SetDotsPerMeterY | Source/FreeImage/BitmapAccess.cpp:1205-1209 | the Y resolution reads back as set; nothing else changes |
| Bitmaps.DestroyIccProfile | Source/FreeImage/BitmapAccess.cpp:1126-1139 | the profile bytes go and the flags stay; the EXIF InterColorProfile tag goes and no other tag changes |
| Bitmaps.CreateIccProfile | Source/FreeImage/BitmapAccess.cpp:1110-1123 | the profile holds the new bytes with the old flags; otherwise the bitmap is as after a destroy |
| Bitmaps.CloneMetadata | Source/FreeImage/BitmapAccess.cpp:1348-1392 | every source model except the animation one replaces the destination's, other models stay, both resolutions are copied, nothing else changes |
| Bitmaps.Clone | Source/FreeImage/BitmapAccess.cpp:552-652 | a clone exists iff the allocation size fits; it is valid and equal in every header field; its pixels are owned and its pitch is the unwrapped one; its thumbnail is the clone of the source's thumbnail when that has pixels, and none otherwise |
| Bitmaps.CloneOfOwnedIsEqual | Source/FreeImage/BitmapAccess.cpp:552-652 | cloning an owned bitmap whose allocations fit yields an equal bitmap, thumbnails included |
| Bitmaps.SetThumbnail | Source/FreeImage/BitmapAccess.cpp:684-697 | only the thumbnail changes; setting the current thumbnail leaves the bitmap unchanged; a null or pixel-less one clears it; otherwise the clone of the new one replaces it |
| Bitmaps.ThumbnailRoundTrip | Source/FreeImage/BitmapAccess.cpp:684-697 | setting an owned thumbnail with pixels and reading it back gives it back |
| ColorClass.MonochromeClass | Source/FreeImage/BitmapAccess.cpp:758-779 | 1-bit: black then white is MINISBLACK, white then black MINISWHITE, anything else PALETTE |
| ColorClass.GreyScan | Source/FreeImage/BitmapAccess.cpp:781-807 | as written: PALETTE iff some entry lies on neither ramp; MINISBLACK iff every entry lies on the ascending ramp; MINISWHITE otherwise |
| ColorClass.RampScan | Source/FreeImage/BitmapAccess.cpp:781-807 | the corrected scan keeps a separate flag per ramp and reports a ramp only when every remaining entry lies on it |
| ColorClass.GreyClass | Source/FreeImage/BitmapAccess.cpp:781-807 | corrected: MINISBLACK iff the palette is the ascending grey ramp, MINISWHITE iff the reversed ramp, PALETTE otherwise |
| ColorClass.GreyScanDiffersOnlyOnMixedRamps | Source/FreeImage/BitmapAccess.cpp:781-807 | the loop and the intended rule differ exactly where the loop answers MINISWHITE for a palette that is not the reversed ramp |
| ColorClass.SwappedRampIsMisclassified | Source/FreeImage/BitmapAccess.cpp:781-807 | the ramp with entries 1 and 14 exchanged is MINISWHITE for the loop but PALETTE for the intended rule |
| ColorClass.RgbaClass | Source/FreeImage/BitmapAccess.cpp:739-750 | the CMYK flag wins over YUV, and with neither flag the type is RGBA |
| ColorClass.ColorType2 | Source/FreeImage/BitmapAccess.cpp:707-847 | PALETTE only for 1/4/8-bit standard bitmaps; CMYK and YUV only with their ICC flags; RGBA only for alpha-carrying types or a 32-bit bitmap not proved opaque; RGB (YUV with the flag) for 16/24-bit standard bitmaps and the RGB types; CMYK over YUV over RGBA for the RGBA types; at 32 bits the ICC flags, then RGB when scanned opaque, otherwise RGBA; MINISBLACK at 2 bits and for the single-channel and complex types; at 4/8 bits (the loop as written) MINISBLACK iff the ascending ramp, PALETTE iff some entry is on neither ramp, MINISWHITE otherwise; at 1 bit black-then-white is MINISBLACK, white-then-black MINISWHITE, any other palette PALETTE; 16-bit grey is MINISWHITE iff the PhotometricInterpretation tag reads 0 |
| ColorClass.ColorType2AgreesWithRampRule | Source/FreeImage/BitmapAccess.cpp:781-807 | at 4/8 bits the classification differs from the documented ramp rule exactly on mixed-ramp palettes, which it calls MINISWHITE where the rule says PALETTE |
| ColorClass.GetColorType | Source/FreeImage/BitmapAccess.cpp:702-704 | a plain 32-bit bitmap is RGBA unless it has pixels and every alpha byte is opaque |
| ColorClass.AllocatedPaletteClasses | Source/FreeImage/BitmapAccess.cpp:462-468 | a fresh 8-bit bitmap is MINISBLACK; a fresh 1-bit bitmap is PALETTE |
| ColorClass.IsTransparent | Source/FreeImage/BitmapAccess.cpp:979-1000 | the stored flag for standard bitmaps other than 32-bit; the colour type at 32 bits; not CMYK for RGBA16/RGBAF; false for every other type |
| ColorClass.TransparentFlagRoundTrip | Source/FreeImage/BitmapAccess.cpp:979-1016 | a flag set on a palettised bitmap reads back; at 16/24 bits it reads back false; at 32 bits it has no effect |
| ColorClass.TransparencyTableSetsFlag | Source/FreeImage/BitmapAccess.cpp:979-1038 | after a table is set on a palettised bitmap, it is transparent iff the count was positive |
| ColorClass.SampleDepthIsChannelsTimesSample | Source/FreeImage/BitmapAccess.cpp:335-376 | the fixed width of each non-standard type is its channel count times the width of its C sample type |
| ColorClass.ChannelsNumber | Source/FreeImage/BitmapAccess.cpp:1228-1264 | 1 to 4 channels; the non-standard types have 4 iff RGBA, 3 iff RGB, 2 iff complex; a standard bitmap has 4 iff 32/64/128 bits, 3 iff 24/48/96 bits, 1 otherwise |
| ColorClass.ChannelsDivideDepth | Source/FreeImage/BitmapAccess.cpp:1228-1264 | on any allocatable bitmap of at least one byte per pixel, the channels split the pixel evenly; RGBA-classified bitmaps have 4 channels |

## Left out

- The aligned allocator (`FreeImage_Aligned_Malloc` and `FreeImage_Aligned_Free`) and every allocation failure. The model assumes memory is available once the size check passes.
- Layout.InternalImageSize: the floating-point cross-check is modelled by what it detects, a pitch truncated to 32 bits on a block with rows; `PitchIsDwordFormula` shows that the two pitch formulas agree mathematically. The double rounding itself is not modelled, so a block above 2^53 bytes that the rounded comparison might refuse is accepted here. In the other direction, the model refuses exact sizes above SIZE_MAX − 128, which the rounded ceiling (2^64 as a double) would let through; `CeilingOnlyGuardsTruncation` shows no allocatable geometry reaches such a size, since a pitch below 2^32 times a height below 2^31 stays below 2^63. `CalculatePitch` is taken to return the pitch modulo 2^32.
- `FreeImage_GetMemorySize`, because it depends on container node and string capacities that are not visible.
- `FreeImage_Unload` and the freeing of replaced thumbnails and tags, because they are resource plumbing.
- Bitmaps.Clone: the raw block copy and pointer patching are left out. The clone is a field-wise copy; pixel contents, including the row copy of a wrapped buffer, are not modelled.
- Bitmaps.SetThumbnail: thumbnails are compared by value, not by pointer. Two distinct but equal thumbnails count as "the same thumbnail".
- Bitmaps.RedMask, Bitmaps.GreenMask, Bitmaps.BlueMask: the 24/32-bit masks are the `FI_RGBA_*` constants of a little-endian (BGR) build; the big-endian RGB layout is not modelled.
- Bitmaps.CloneMetadata: a call with the same bitmap as source and destination is modelled as a plain copy. The source clears the destination's models while iterating over the same map, which is a use-after-free the value model cannot express.
- TagStore.PutTag: storing the very tag object already held under that key is modelled as storing an equal copy. The source deletes the old tag before cloning the new one, so that call clones a freed tag; object identity is not modelled.
- Bitmaps.CreateIccProfile: the profile bytes are modelled, and malloc failure and the size field are not. The ICC flag word is reduced to the two flags the library tests (CMYK, YUV).
- Bitmaps.GetLine: it models the 32-bit wrap-around of width·bpp as written; the ceiling property is stated only where no wrap occurs (see Findings).
- Bitmaps.SetTransparentIndex: its contract only states the no-colour case; what it stores is stated through `TransparentIndexRoundTrip`.
- Tag objects are values: `FreeImage_CreateTag`, `FreeImage_CloneTag` and `FreeImage_DeleteTag` become copies and drops. `SetMetadata` rewrites the key of the caller's tag object, and that mutation is not modelled; only the stored copy is.
- `FreeImage_TagDataWidth` and the IPTC name lookup are parameters. The consistency check is computed on unbounded integers, not 32-bit unsigned ones.
- `FreeImage_OutputMessageProc` (diagnostic output) and `FreeImage_SetMetadataKeyValue` (tag building) are left out.
- `FreeImage_FindCloseMetadata`, because it only frees the handle. The cursor is a value, and changes to the tag map during an iteration are not modelled.
- ColorClass.ColorType2: the 32-bit alpha scan is the boolean `alphaOpaque`. A PhotometricInterpretation value shorter than two bytes, which the source over-reads, counts as non-zero.
- Null bitmap handles: every operation is modelled on an existing bitmap. Null keys, tags and thumbnails are modelled as `Option`.
- `FreeImage_GetDIBSize`, `FreeImage_GetPalette`, and the plain field getters (`GetWidth`, `GetHeight`, `GetBPP`, `GetColorsUsed`, `GetImageType`, `HasPixels`, `GetDotsPerMeterX/Y`, `GetTransparencyCount/Table`, `GetThumbnail`, `GetICCProfile`). These are record field reads in this model.

## Findings

| source | as written | input that shows it | evidently intended | confidence | as-written member | corrected member |
|---|---|---|---|---|---|---|
| Source/FreeImage/BitmapAccess.cpp:1298-1299 | `FreeImage_FindFirstMetadata` dereferences `begin()` of the model's tag map without checking that it is non-empty | a rejected `SetMetadata` on a new model (count·width ≠ length), or deleting a model's only key, followed by `FindFirstMetadata` on that model | an empty model yields no handle, as an absent one does | not executed | TagStore.FindFirstAsWritten | TagStore.FindFirst |
| Source/FreeImage/BitmapAccess.cpp:781-807 | the 4/8-bit grey test checks each entry against either ramp on its own, so ascending and reversed entries may be mixed | a 16-entry grey ramp with entries 1 and 14 exchanged is classified MINISWHITE | such a palette is PALETTE; MINISWHITE only for the fully reversed ramp | not executed | ColorClass.GreyScan | ColorClass.GreyClass |
| Source/FreeImage/BitmapAccess.cpp:1159-1161 | `FreeImage_GetLine` multiplies width by bpp in 32-bit `unsigned`, while the allocator sizes the block with the pitch from `CalculatePitch`, which fits | a standard 32-bit bitmap of 2^28 × 1 pixels is allocated (2^30-byte row) and reports a line and a pitch of 0 | the line of every allocatable bitmap, ⌈width·bpp/8⌉ | not executed | Bitmaps.WideLineWraps | Bitmaps.GetLineWide |

The operations themselves keep the code's behaviour: `ColorType2` classifies 4/8-bit
palettes with the loop as written, and `GetPitch` pads the wrapped line. The corrected
definitions stand beside them. `ColorType2AgreesWithRampRule` and
`GreyScanDiffersOnlyOnMixedRamps` bound where the classification departs from the ramp
rule. `WideLineFillsBlock` states what the corrected line guarantees.

=== FILE: colorclass.dfy ===
/**
  Colour classification (FreeImage_GetColorType2), the transparency query that
  builds on it (FreeImage_IsTransparent), and the channel count
  (FreeImage_GetChannelsNumber).

  Pixel contents are not part of the bitmap value: the only pixel read the
  classification makes, the scan of a 32-bit image for a non-opaque alpha byte,
  becomes the boolean parameter `alphaOpaque` ("every alpha byte is 0xFF").
*/
module ColorClass {

  import opened Wrappers
  import opened Ints
  import opened TagStore
  import opened Bitmaps

  /** FREE_IMAGE_COLOR_TYPE */
  datatype ColorType =
    | MinIsWhite  // FIC_MINISWHITE
    | MinIsBlack  // FIC_MINISBLACK
    | Rgb         // FIC_RGB
    | Palette     // FIC_PALETTE
    | RgbAlpha    // FIC_RGBALPHA
    | Cmyk        // FIC_CMYK
    | Yuv         // FIC_YUV

  predicate IsBlack(c: Rgba) { c.red == 0 && c.green == 0 && c.blue == 0 }
  predicate IsWhite(c: Rgba) { c.red == 255 && c.green == 255 && c.blue == 255 }
  predicate IsGrey(c: Rgba) { c.red == c.green && c.red == c.blue }

  // ----------------------------------------------------------------------
  // 1-bit palettes

  /** The 1-bit test as the source walks it: a cursor that advances past entry 0
      only when entry 0 is black, so the white-then-black test starts at entry 1
      in that case. */
  function MonochromeClass(pal: seq<Rgba>): (r: ColorType)
    requires |pal| >= 2
    ensures r == MinIsBlack <==> IsBlack(pal[0]) && IsWhite(pal[1])
    ensures r == MinIsWhite <==> IsWhite(pal[0]) && IsBlack(pal[1])
    ensures r == MinIsBlack || r == MinIsWhite || r == Palette
  {
    if IsBlack(pal[0]) && IsWhite(pal[1]) then MinIsBlack
    else
      var p := if IsBlack(pal[0]) then 1 else 0;
      if IsWhite(pal[p]) && IsBlack(pal[p + 1]) then MinIsWhite else Palette
  }

  // ----------------------------------------------------------------------
  // 4-bit and 8-bit palettes

  /** Entry `j` is a grey of the ascending ramp. */
  predicate OnRamp(pal: seq<Rgba>, j: int)
    requires 0 <= j < |pal|
  {
    IsGrey(pal[j]) && pal[j].red == j
  }

  /** Entry `j` of `n` is a grey of the reversed ramp. */
  predicate OnReversedRamp(pal: seq<Rgba>, n: int, j: int)
    requires 0 <= j < |pal|
  {
    IsGrey(pal[j]) && pal[j].red == n - 1 - j
  }

  /** palette[i] = (i, i, i) for every entry in use */
  predicate AscendingRamp(pal: seq<Rgba>, n: nat)
    requires n <= |pal|
  {
    forall j :: 0 <= j < n ==> OnRamp(pal, j)
  }

  /** palette[i] = (n-1-i, n-1-i, n-1-i) for every entry in use */
  predicate DescendingRamp(pal: seq<Rgba>, n: nat)
    requires n <= |pal|
  {
    forall j :: 0 <= j < n ==> OnReversedRamp(pal, n, j)
  }

  /** The source's 4/8-bit loop from entry `i` on, `minIsBlack` being the flag it
      carries: an entry fails when it is not grey or lies on neither ramp; an entry
      off the ascending ramp but on the reversed one clears the flag. Each entry
      is judged on its own, so the two ramps may be mixed. */
  function GreyScan(pal: seq<Rgba>, n: nat, i: nat, minIsBlack: bool): (r: ColorType)
    requires n <= |pal|
    ensures r == MinIsBlack || r == MinIsWhite || r == Palette
    ensures r == Palette <==>
              exists j :: i <= j < n && !OnRamp(pal, j) && !OnReversedRamp(pal, n, j)
    ensures r == MinIsBlack <==> minIsBlack && forall j :: i <= j < n ==> OnRamp(pal, j)
    decreases n - i
  {
    if i >= n then (if minIsBlack then MinIsBlack else MinIsWhite)
    else if pal[i].red != pal[i].green || pal[i].red != pal[i].blue then
      assert !OnRamp(pal, i) && !OnReversedRamp(pal, n, i);
      Palette
    else if pal[i].red != i then
      assert !OnRamp(pal, i);
      if n - i - 1 != pal[i].red then Palette else GreyScan(pal, n, i + 1, false)
    else GreyScan(pal, n, i + 1, minIsBlack)
  }

  /** The scan with one flag per ramp: an entry must keep at least one of the two
      ramps possible for the whole palette. */
  function RampScan(pal: seq<Rgba>, n: nat, i: nat, ascending: bool, descending: bool): (r: ColorType)
    requires n <= |pal|
    ensures r == MinIsBlack || r == MinIsWhite || r == Palette
    ensures r == MinIsBlack <==> ascending && forall j :: i <= j < n ==> OnRamp(pal, j)
    ensures r == MinIsWhite <==>
              !(ascending && forall j :: i <= j < n ==> OnRamp(pal, j))
              && descending && forall j :: i <= j < n ==> OnReversedRamp(pal, n, j)
    decreases n - i
  {
    if i >= n then
      if ascending then MinIsBlack else if descending then MinIsWhite else Palette
    else
      var asc := ascending && OnRamp(pal, i);
      var desc := descending && OnReversedRamp(pal, n, i);
      if !asc && !desc then Palette else RampScan(pal, n, i + 1, asc, desc)
  }

  /** The 4/8-bit classification as documented: the ascending grey ramp is
      MINISBLACK, the reversed ramp MINISWHITE, anything else PALETTE. */
  function GreyClass(pal: seq<Rgba>, n: nat): (r: ColorType)
    requires n <= |pal|
    ensures r == MinIsBlack <==> AscendingRamp(pal, n)
    ensures r == MinIsWhite <==> DescendingRamp(pal, n) && !AscendingRamp(pal, n)
    ensures r == Palette <==> !AscendingRamp(pal, n) && !DescendingRamp(pal, n)
  {
    RampScan(pal, n, 0, true, true)
  }

  /** The loop as written and the documented rule disagree exactly on palettes
      that pass the per-entry test without being either ramp: the loop calls
      them MINISWHITE. */
  lemma GreyScanDiffersOnlyOnMixedRamps(pal: seq<Rgba>, n: nat)
    requires n <= |pal|
    ensures GreyScan(pal, n, 0, true) != GreyClass(pal, n) <==>
              GreyScan(pal, n, 0, true) == MinIsWhite && !DescendingRamp(pal, n)
    ensures GreyScan(pal, n, 0, true) != GreyClass(pal, n) ==> GreyClass(pal, n) == Palette
  {
    if DescendingRamp(pal, n) {
      assert forall j :: 0 <= j < n ==> OnReversedRamp(pal, n, j);
    }
  }

  /** A 16-entry grey ramp with entries 1 and 14 exchanged. */
  function SwappedRamp(): (p: seq<Rgba>)
    ensures |p| == 16
  {
    seq(16, j requires 0 <= j < 16 =>
      var v := if j == 1 then 14 else if j == 14 then 1 else j; Rgba(v, v, v, 0))
  }

  /** The loop as written classifies the exchanged ramp as MINISWHITE, although it
      is neither the ascending nor the reversed ramp. */
  lemma SwappedRampIsMisclassified()
    ensures GreyScan(SwappedRamp(), 16, 0, true) == MinIsWhite
    ensures GreyClass(SwappedRamp(), 16) == Palette
  {
    var p := SwappedRamp();
    forall j | 0 <= j < 16
      ensures OnRamp(p, j) || OnReversedRamp(p, 16, j)
    {
      if j == 1 || j == 14 {
        assert OnReversedRamp(p, 16, j);
      } else {
        assert OnRamp(p, j);
      }
    }
    assert !OnRamp(p, 1);
    assert !OnReversedRamp(p, 16, 0);
  }

  // ----------------------------------------------------------------------
  // FreeImage_GetColorType2

  /** The PhotometricInterpretation value read as a 16-bit integer is zero. A
      value shorter than two bytes counts as non-zero. */
  predicate PhotometricIsZero(t: Tag)
  {
    |t.value| >= 2 && t.value[0] == 0 && t.value[1] == 0
  }

  /** FreeImage_GetColorType2. The 4/8-bit case is the loop as written
      (GreyScan); `ColorType2AgreesWithRampRule` relates it to the documented
      ramp rule (GreyClass). */
  function ColorType2(b: Dib, scanAlpha: bool, alphaOpaque: bool): (r: ColorType)
    requires Valid(b)
    ensures r == Palette ==> b.imageType == Standard && b.info.bitCount in {1, 4, 8}
    ensures r == Cmyk ==> b.icc.cmyk
    ensures r == Yuv ==> b.icc.yuv && !(b.imageType in {Rgba16, RgbaF, Rgba32} && b.icc.cmyk)
    ensures r == RgbAlpha ==>
              b.imageType in {Rgba16, RgbaF, Rgba32}
              || (b.imageType == Standard && b.info.bitCount == 32
                  && !(scanAlpha && b.hasPixels && alphaOpaque))
    ensures b.imageType == Standard && b.info.bitCount in {4, 8} ==>
              && r in {MinIsBlack, MinIsWhite, Palette}
              && (r == MinIsBlack <==> AscendingRamp(b.palette, |b.palette|))
              && (r == Palette <==>
                    exists j :: 0 <= j < |b.palette| && !OnRamp(b.palette, j)
                                && !OnReversedRamp(b.palette, |b.palette|, j))
    ensures b.imageType == Standard && b.info.bitCount == 1 ==>
              (r in {MinIsBlack, MinIsWhite, Palette}
               && (r == MinIsBlack <==> IsBlack(b.palette[0]) && IsWhite(b.palette[1]))
               && (r == MinIsWhite <==> IsWhite(b.palette[0]) && IsBlack(b.palette[1])))
    ensures b.imageType == U16 ==>
              (r == MinIsWhite <==>
                 var t := Lookup(b.metadata, ModelExifMain, "PhotometricInterpretation");
                 t.Some? && PhotometricIsZero(t.value))
    ensures b.imageType == U16 ==> r in {MinIsWhite, MinIsBlack}
    ensures (b.imageType == Standard && b.info.bitCount in {16, 24})
            || b.imageType in {Rgb16, Rgb32, RgbF} ==>
              r == (if b.icc.yuv then Yuv else Rgb)
    ensures b.imageType in {Rgba16, Rgba32, RgbaF} ==> r == RgbaClass(b.icc)
    ensures b.imageType == Standard && b.info.bitCount == 32 ==>
              r == (if b.icc.cmyk || b.icc.yuv then RgbaClass(b.icc)
                    else if scanAlpha && b.hasPixels && alphaOpaque then Rgb
                    else RgbAlpha)
    ensures b.imageType == Standard && b.info.bitCount == 2 ==> r == MinIsBlack
    ensures b.imageType in {I16, U32, I32, F32, F64, ComplexF, Complex} ==> r == MinIsBlack
  {
    match b.imageType
    case U16 =>
      (match Lookup(b.metadata, ModelExifMain, "PhotometricInterpretation")
       case Some(t) => if PhotometricIsZero(t) then MinIsWhite else MinIsBlack
       case None => MinIsBlack)
    case Rgb32 => if b.icc.yuv then Yuv else Rgb
    case Rgb16 => if b.icc.yuv then Yuv else Rgb
    case RgbF => if b.icc.yuv then Yuv else Rgb
    case Rgba32 => RgbaClass(b.icc)
    case Rgba16 => RgbaClass(b.icc)
    case RgbaF => RgbaClass(b.icc)
    case Standard =>
      var bpp := b.info.bitCount;
      if bpp == 1 then MonochromeClass(b.palette)
      else if bpp == 4 || bpp == 8 then
        GreyScan(b.palette, b.info.colorsUsed, 0, true)
      else if bpp == 16 || bpp == 24 then (if b.icc.yuv then Yuv else Rgb)
      else if bpp == 32 then
        if b.icc.cmyk || b.icc.yuv then RgbaClass(b.icc)
        else if scanAlpha && b.hasPixels then (if alphaOpaque then Rgb else RgbAlpha)
        else RgbAlpha
      else MinIsBlack
    case _ => MinIsBlack
  }

  /** At 4 and 8 bits the classification is the documented ramp rule except on
      palettes that mix the two ramps, which it reports as MINISWHITE where the
      rule says PALETTE. */
  lemma ColorType2AgreesWithRampRule(b: Dib, scanAlpha: bool, alphaOpaque: bool)
    requires Valid(b) && b.imageType == Standard && b.info.bitCount in {4, 8}
    ensures ColorType2(b, scanAlpha, alphaOpaque) != GreyClass(b.palette, |b.palette|) <==>
              ColorType2(b, scanAlpha, alphaOpaque) == MinIsWhite
              && !DescendingRamp(b.palette, |b.palette|)
    ensures ColorType2(b, scanAlpha, alphaOpaque) != GreyClass(b.palette, |b.palette|) ==>
              GreyClass(b.palette, |b.palette|) == Palette
  {
    GreyScanDiffersOnlyOnMixedRamps(b.palette, |b.palette|);
  }

  /** The ICC-flag test shared by the alpha-carrying types. */
  function RgbaClass(icc: IccProfile): (r: ColorType)
    ensures r == Cmyk <==> icc.cmyk
    ensures r == Yuv <==> !icc.cmyk && icc.yuv
    ensures r == RgbAlpha <==> !icc.cmyk && !icc.yuv
  {
    if icc.cmyk then Cmyk else if icc.yuv then Yuv else RgbAlpha
  }

  /** FreeImage_GetColorType: the classification with the alpha scan on. */
  function GetColorType(b: Dib, alphaOpaque: bool): (r: ColorType)
    requires Valid(b)
    ensures b.imageType == Standard && b.info.bitCount == 32 && !b.icc.cmyk && !b.icc.yuv ==>
              (r == RgbAlpha <==> !(b.hasPixels && alphaOpaque))
  {
    ColorType2(b, true, alphaOpaque)
  }

  /** A freshly allocated 8-bit bitmap carries the grey ramp and so classifies as
      MINISBLACK; a fresh 1-bit bitmap has an all-black palette and classifies as
      PALETTE. */
  lemma AllocatedPaletteClasses(hdr: nat, width: Int32, height: Int32, bpp: Int32, alphaOpaque: bool)
    requires AllocateBitmap(hdr, false, None, 0, Standard, width, height, bpp, 0, 0, 0).Some?
    ensures var d := AllocateBitmap(hdr, false, None, 0, Standard, width, height, bpp, 0, 0, 0).value;
            && (bpp == 8 ==> GetColorType(d, alphaOpaque) == MinIsBlack)
            && (bpp == 1 ==> GetColorType(d, alphaOpaque) == Palette)
  {
    var d := AllocateBitmap(hdr, false, None, 0, Standard, width, height, bpp, 0, 0, 0).value;
    if bpp == 8 {
      assert forall j :: 0 <= j < |d.palette| ==> OnRamp(d.palette, j);
    }
    if bpp == 1 {
      assert !IsWhite(d.palette[0]) && !IsWhite(d.palette[1]);
    }
  }

  // ----------------------------------------------------------------------
  // FreeImage_IsTransparent

  /** FreeImage_IsTransparent. The stored flag only speaks for standard bitmaps
      other than 32-bit ones; a 32-bit bitmap is transparent when it classifies as
      RGBA, and the alpha-carrying 16-bit and float types unless they are CMYK. */
  function IsTransparent(b: Dib, alphaOpaque: bool): (r: bool)
    requires Valid(b)
    ensures b.imageType == Standard && b.info.bitCount != 32 ==> r == b.transparent
    ensures b.imageType == Standard && b.info.bitCount == 32 ==>
              (r <==> !b.icc.cmyk && !b.icc.yuv && !(b.hasPixels && alphaOpaque))
    ensures b.imageType in {Rgba16, RgbaF} ==> r == !b.icc.cmyk
    ensures b.imageType !in {Standard, Rgba16, RgbaF} ==> !r
  {
    match b.imageType
    case Standard =>
      if b.info.bitCount == 32 then GetColorType(b, alphaOpaque) == RgbAlpha
      else b.transparent
    case Rgba16 => !b.icc.cmyk
    case RgbaF => !b.icc.cmyk
    case _ => false
  }

  /** The flag set by FreeImage_SetTransparent is the one read back on palettised
      bitmaps; it is forced off at 16 and 24 bits and ignored at 32 bits. */
  lemma TransparentFlagRoundTrip(b: Dib, enabled: bool, alphaOpaque: bool)
    requires Valid(b) && b.imageType == Standard
    ensures Valid(SetTransparent(b, enabled))
    ensures b.info.bitCount <= 8 ==> IsTransparent(SetTransparent(b, enabled), alphaOpaque) == enabled
    ensures b.info.bitCount in {16, 24} ==> !IsTransparent(SetTransparent(b, enabled), alphaOpaque)
    ensures b.info.bitCount == 32 ==>
              IsTransparent(SetTransparent(b, enabled), alphaOpaque) == IsTransparent(b, alphaOpaque)
  {
  }

  /** A transparency table makes a palettised bitmap transparent exactly when its
      clamped length is positive. */
  lemma TransparencyTableSetsFlag(b: Dib, table: Option<seq<Byte>>, count: int, alphaOpaque: bool)
    requires Valid(b) && b.imageType == Standard && b.info.bitCount <= 8
    requires table.Some? ==> |table.value| >= ClampCount(count)
    ensures Valid(SetTransparencyTable(b, table, count))
    ensures IsTransparent(SetTransparencyTable(b, table, count), alphaOpaque) <==> count > 0
  {
  }

  // ----------------------------------------------------------------------
  // FreeImage_GetChannelsNumber

  /** FreeImage_GetChannelsNumber */
  function ChannelsNumber(t: ImageType, bpp: nat): (r: nat)
    ensures 1 <= r <= 4
    ensures t != Standard ==> (r == 4 <==> t in {Rgba16, RgbaF, Rgba32})
    ensures t != Standard ==> (r == 3 <==> t in {Rgb16, RgbF, Rgb32})
    ensures t != Standard ==> (r == 2 <==> t in {ComplexF, Complex})
    ensures t == Standard ==> (r == 4 <==> bpp in {32, 64, 128})
    ensures t == Standard ==> (r == 3 <==> bpp in {24, 48, 96})
    ensures t == Standard ==> r != 2
  {
    match t
    case Standard =>
      if bpp == 32 || bpp == 64 || bpp == 128 then 4
      else if bpp == 24 || bpp == 48 || bpp == 96 then 3
      else 1
    case Rgb32 => 3
    case Rgb16 => 3
    case RgbF => 3
    case Rgba32 => 4
    case Rgba16 => 4
    case RgbaF => 4
    case ComplexF => 2
    case Complex => 2
    case _ => 1
  }

  /** Width in bits of one channel of a non-standard type: the C sample type its
      pixel structure is built from. */
  function SampleBits(t: ImageType): nat
  {
    match t
    case U16 => 16
    case I16 => 16
    case Rgb16 => 16
    case Rgba16 => 16
    case F64 => 64
    case Complex => 64
    case _ => 32
  }

  /** The fixed width of every non-standard type is its channel count times the
      width of its sample type. */
  lemma SampleDepthIsChannelsTimesSample(t: ImageType)
    requires t != Unknown && t != Standard
    ensures SampleDepth(t) == ChannelsNumber(t, SampleDepth(t)) * SampleBits(t)
  {
  }

  /** On every bitmap the allocator can produce, a pixel of at least one byte splits
      into whole channels of equal width; the alpha-carrying colour types have four
      channels. */
  lemma ChannelsDivideDepth(b: Dib, alphaOpaque: bool)
    requires Valid(b)
    ensures b.info.bitCount >= 8 ==> b.info.bitCount % ChannelsNumber(b.imageType, b.info.bitCount) == 0
    ensures ColorType2(b, false, alphaOpaque) == RgbAlpha ==>
              ChannelsNumber(b.imageType, b.info.bitCount) == 4
  {
  }
}

=== FILE: dib.dfy ===
/**
  The bitmap object (FIBITMAP) as a value: the fields of its object header
  (FREEIMAGEHEADER), of its info header (BITMAPINFOHEADER), its palette or
  channel masks, and its metadata store. Pixel contents are not part of the
  value; where an operation reads pixels, the result of that read is a parameter.
*/
module Bitmaps {

  import opened Wrappers
  import opened Ints
  import opened Layout
  import opened TagStore

  /** FREE_IMAGE_TYPE */
  datatype ImageType =
    | Unknown   // FIT_UNKNOWN
    | Standard  // FIT_BITMAP
    | U16       // FIT_UINT16
    | I16       // FIT_INT16
    | U32       // FIT_UINT32
    | I32       // FIT_INT32
    | F32       // FIT_FLOAT
    | F64       // FIT_DOUBLE
    | ComplexF  // FIT_COMPLEXF
    | Complex   // FIT_COMPLEX
    | Rgb16     // FIT_RGB16
    | Rgba16    // FIT_RGBA16
    | Rgb32     // FIT_RGB32
    | Rgba32    // FIT_RGBA32
    | RgbF      // FIT_RGBF
    | RgbaF     // FIT_RGBAF

  /** FIRGBA8 */
  datatype Rgba = Rgba(red: Byte, green: Byte, blue: Byte, alpha: Byte)

  /** biCompression values */
  const BiRgb: nat := 0
  const BiBitfields: nat := 3
  /** 72 dots per inch expressed in dots per meter */
  const DefaultPelsPerMeter: UInt32 := 2835
  /** FI_RGBA_RED_MASK, FI_RGBA_GREEN_MASK, FI_RGBA_BLUE_MASK in BGRA byte order */
  const RgbaRedMask: UInt32 := 0x00FF_0000
  const RgbaGreenMask: UInt32 := 0x0000_FF00
  const RgbaBlueMask: UInt32 := 0x0000_00FF

  /** The BITMAPINFOHEADER fields the library reads or writes. */
  datatype InfoHeader = InfoHeader(width: nat, height: nat, bitCount: nat, compression: nat,
                                   colorsUsed: nat, colorsImportant: nat,
                                   xPelsPerMeter: UInt32, yPelsPerMeter: UInt32)

  /** FREEIMAGERGBMASKS */
  datatype Masks = Masks(red: UInt32, green: UInt32, blue: UInt32)

  /** FIICCPROFILE: the profile bytes and the two flag tests the library makes
      (FIICC_COLOR_IS_CMYK, FIICC_COLOR_IS_YUV). */
  datatype IccProfile = IccProfile(data: seq<Byte>, cmyk: bool, yuv: bool)

  type TransparencyTable = t: seq<Byte> | |t| == 256 witness seq(256, _ => 0xFF)
  type TransparencyCount = n: int | 0 <= n <= 256

  /** A FIBITMAP. `externalBits` is the address of a caller-supplied pixel buffer,
      or None when the bitmap owns its pixels. */
  datatype Dib = Dib(
    imageType: ImageType,
    background: Rgba,
    transparentTable: TransparencyTable,
    transparencyCount: TransparencyCount,
    transparent: bool,
    icc: IccProfile,
    metadata: MetadataMap,
    hasPixels: bool,
    thumbnail: Option<Dib>,
    externalBits: Option<nat>,
    externalPitch: UInt32,
    info: InfoHeader,
    palette: seq<Rgba>,
    masks: Option<Masks>)

  /** The pixel depths FIT_BITMAP accepts. */
  predicate IsStandardDepth(bpp: int)
  {
    bpp == 1 || bpp == 2 || bpp == 4 || bpp == 8 || bpp == 16 || bpp == 24 || bpp == 32
  }

  /** 8 * sizeof of one pixel of a non-standard image type. */
  function SampleDepth(t: ImageType): nat
  {
    match t
    case U16 => 16
    case I16 => 16
    case U32 => 32
    case I32 => 32
    case F32 => 32
    case F64 => 64
    case ComplexF => 64
    case Complex => 128
    case Rgb16 => 48
    case Rgba16 => 64
    case Rgb32 => 96
    case Rgba32 => 128
    case RgbF => 96
    case RgbaF => 128
    case _ => 0
  }

  /** The depth an allocation of type `t` ends up with: FIT_BITMAP keeps a depth
      it accepts and falls back to 8 otherwise; every other known type imposes its
      own width; an unknown type is refused. */
  function NormalizedDepth(t: ImageType, bpp: int): (r: Option<nat>)
    ensures r.None? <==> t == Unknown
    ensures t == Standard ==> (r == Some(bpp) <==> IsStandardDepth(bpp))
    ensures t == Standard && !IsStandardDepth(bpp) ==> r == Some(8)
    ensures t != Unknown && t != Standard ==> r == Some(SampleDepth(t))
    ensures r.Some? ==> r.value >= 1 && (r.value % 8 == 0 || r.value in {1, 2, 4})
  {
    match t
    case Unknown => None
    case Standard => if IsStandardDepth(bpp) then Some(bpp) else Some(8)
    case _ => Some(SampleDepth(t))
  }

  /** Normalising an accepted depth changes nothing. */
  lemma NormalizeIdempotent(t: ImageType, bpp: int)
    requires NormalizedDepth(t, bpp).Some?
    ensures NormalizedDepth(t, NormalizedDepth(t, bpp).value) == NormalizedDepth(t, bpp)
  {
  }

  /** C abs() on an int: the most negative value has no positive counterpart
      and stays negative. */
  function Abs32(x: Int32): (r: int)
    ensures x != -0x8000_0000 ==> r >= 0 && (r == x || r == -x)
    ensures x == -0x8000_0000 ==> r < 0
  {
    if x == -0x8000_0000 then x else if x < 0 then -x else x
  }

  /** The allocation invariant every FIBITMAP satisfies. */
  predicate Valid(b: Dib)
    decreases b
  {
    && b.imageType != Unknown
    && 0 < b.info.width < 0x8000_0000
    && 0 < b.info.height < 0x8000_0000
    && NormalizedDepth(b.imageType, b.info.bitCount) == Some(b.info.bitCount)
    && b.info.colorsUsed == PaletteEntries(b.info.bitCount)
    && |b.palette| == b.info.colorsUsed
    && (b.masks.Some? <==> b.imageType == Standard && b.info.bitCount == 16)
    && b.info.compression == (if b.masks.Some? then BiBitfields else BiRgb)
    && (b.externalBits.Some? ==> b.hasPixels && b.externalPitch > 0)
    && (b.thumbnail.Some? ==> Valid(b.thumbnail.value))
  }

  function GreyRamp(): (p: seq<Rgba>)
    ensures |p| == 256
    ensures forall i :: 0 <= i < 256 ==> p[i] == Rgba(i, i, i, 0)
  {
    seq(256, i requires 0 <= i < 256 => Rgba(i, i, i, 0))
  }

  // ----------------------------------------------------------------------
  // FreeImage_AllocateBitmap

  /** The zero-filled block with every header field written. */
  function NewDib(headerOnly: bool, extBits: Option<nat>, extPitch: UInt32, t: ImageType,
                  width: nat, height: nat, depth: nat, needMasks: bool,
                  redMask: UInt32, greenMask: UInt32, blueMask: UInt32): Dib
  {
    var entries := PaletteEntries(depth);
    Dib(
      imageType := t,
      background := Rgba(0, 0, 0, 0),
      transparentTable := seq(256, _ => 0xFF),
      transparencyCount := 0,
      transparent := false,
      icc := IccProfile([], false, false),
      metadata := map[],
      hasPixels := !headerOnly,
      thumbnail := None,
      externalBits := extBits,
      externalPitch := extPitch,
      info := InfoHeader(width, height, depth, if needMasks then BiBitfields else BiRgb,
                         entries, entries, DefaultPelsPerMeter, DefaultPelsPerMeter),
      palette := if depth == 8 then GreyRamp() else seq(entries, _ => Rgba(0, 0, 0, 0)),
      masks := if needMasks then Some(Masks(redMask, greenMask, blueMask)) else None)
  }

  /** FreeImage_AllocateBitmap, less the allocator: validates the geometry and the
      external buffer, normalises the depth, sizes the block and fills the headers.
      A caller-supplied buffer makes the block header-only but the bitmap
      pixel-bearing. */
  function AllocateBitmap(hdr: nat, headerOnly: bool, extBits: Option<nat>, extPitch: UInt32,
                          t: ImageType, width: Int32, height: Int32, bpp: Int32,
                          redMask: UInt32, greenMask: UInt32, blueMask: UInt32): (r: Option<Dib>)
    requires extBits.Some? ==> !headerOnly
    ensures r.Some? ==> Valid(r.value)
    ensures width == 0 || height == 0 || t == Unknown ==> r.None?
    ensures extBits.Some? && extPitch == 0 ==> r.None?
    ensures r.Some? ==>
              && r.value.imageType == t
              && r.value.info.width == Abs32(width)
              && r.value.info.height == Abs32(height)
              && Some(r.value.info.bitCount) == NormalizedDepth(t, bpp)
              && r.value.hasPixels == !headerOnly
              && r.value.externalBits == extBits
              && r.value.externalPitch == extPitch
              && r.value.icc == IccProfile([], false, false)
    ensures r.Some? ==> r.value.info.colorsImportant == r.value.info.colorsUsed
    ensures r.Some? && r.value.masks.Some? ==> r.value.masks.value == Masks(redMask, greenMask, blueMask)
    ensures r.Some? && r.value.info.bitCount == 8 ==>
              forall i :: 0 <= i < |r.value.palette| ==> r.value.palette[i] == Rgba(i, i, i, 0)
    ensures r.Some? ==>
              && !r.value.transparent && r.value.transparencyCount == 0
              && (forall i :: 0 <= i < 256 ==> r.value.transparentTable[i] == 0xFF)
              && r.value.background.alpha == 0
              && r.value.metadata == map[]
              && r.value.thumbnail.None?
              && r.value.info.xPelsPerMeter == r.value.info.yPelsPerMeter == DefaultPelsPerMeter
  {
    var w := Abs32(width);
    var h := Abs32(height);
    if !(w > 0 && h > 0) then None
    else if extBits.Some? && extPitch == 0 then None
    else
      match NormalizedDepth(t, bpp)
      case None => None
      case Some(depth) =>
        var needMasks := t == Standard && depth == 16;
        if InternalImageSize(hdr, headerOnly || extBits.Some?, w, h, depth, needMasks) == 0 then None
        else Some(NewDib(headerOnly, extBits, extPitch, t, w, h, depth, needMasks,
                         redMask, greenMask, blueMask))
  }

  /** A bitmap wrapping a caller's buffer reports the caller's pitch, whatever
      the geometry. */
  lemma WrappedPitchRoundTrip(hdr: nat, extBits: nat, extPitch: UInt32, t: ImageType,
                              width: Int32, height: Int32, bpp: Int32,
                              red: UInt32, green: UInt32, blue: UInt32)
    requires AllocateBitmap(hdr, false, Some(extBits), extPitch, t, width, height, bpp,
                            red, green, blue).Some?
    ensures var d := AllocateBitmap(hdr, false, Some(extBits), extPitch, t, width, height, bpp,
                                    red, green, blue).value;
            && extPitch > 0
            && GetPitch(d) == extPitch
            && GetBits(d, 0, hdr) == Some(extBits)
  {
  }

  /** The size the allocator asks for, as the layout calculator computes it. */
  function BlockSize(hdr: nat, b: Dib): nat
  {
    InternalImageSize(hdr, !b.hasPixels || b.externalBits.Some?, b.info.width, b.info.height,
                      b.info.bitCount, b.masks.Some?)
  }

  /** Allocation succeeds exactly when the geometry and buffer arguments pass and
      the layout calculator does not report an overflow. */
  lemma AllocateSucceedsIff(hdr: nat, headerOnly: bool, extBits: Option<nat>, extPitch: UInt32,
                            t: ImageType, width: Int32, height: Int32, bpp: Int32,
                            redMask: UInt32, greenMask: UInt32, blueMask: UInt32)
    requires extBits.Some? ==> !headerOnly
    ensures var r := AllocateBitmap(hdr, headerOnly, extBits, extPitch, t, width, height, bpp,
                                    redMask, greenMask, blueMask);
            r.Some? <==>
              && width != 0 && width != -0x8000_0000
              && height != 0 && height != -0x8000_0000
              && !(extBits.Some? && extPitch == 0)
              && t != Unknown
              && InternalImageSize(hdr, headerOnly || extBits.Some?, Abs32(width), Abs32(height),
                                   NormalizedDepth(t, bpp).value,
                                   t == Standard && NormalizedDepth(t, bpp).value == 16) != 0
  {
  }

  /** The overflow guard: a maximal 128-bit-per-pixel image does not fit. */
  lemma HugeImageIsRefused(hdr: nat)
    ensures AllocateBitmap(hdr, false, None, 0, RgbaF, 0x7FFF_FFFF, 0x7FFF_FFFF, 128, 0, 0, 0).None?
  {
    var w: nat := 0x7FFF_FFFF;
    assert LineBytes(w, 128) == 16 * w;
    assert PitchOf(16 * w) == 16 * w;
    assert PitchOf(LineBytes(w, 128)) * w > MaxMemory;
  }

  /** A single row of 2^30 pixels at 128 bits has a pitch of 2^34 bytes, which the
      `unsigned` pitch cannot hold, so the allocation is refused although the
      block itself would fit under the ceiling. */
  lemma TruncatedPitchIsRefused(hdr: nat)
    ensures AllocateBitmap(hdr, false, None, 0, RgbaF, 0x4000_0000, 1, 128, 0, 0, 0).None?
  {
    var w: nat := 0x4000_0000;
    assert LineBytes(w, 128) == 16 * w;
    assert PitchOf(16 * w) == 16 * w;
    assert PitchTruncated(w, 1, 128);
  }

  /** Every bitmap allocated with its own pixels has a pitch that fits 32 bits. */
  lemma AllocatedPitchFits(hdr: nat, t: ImageType, width: Int32, height: Int32, bpp: Int32,
                           red: UInt32, green: UInt32, blue: UInt32)
    requires AllocateBitmap(hdr, false, None, 0, t, width, height, bpp, red, green, blue).Some?
    ensures var d := AllocateBitmap(hdr, false, None, 0, t, width, height, bpp,
                                    red, green, blue).value;
            PitchOf(LineBytes(d.info.width, d.info.bitCount)) < PitchLimit
  {
    var d := AllocateBitmap(hdr, false, None, 0, t, width, height, bpp, red, green, blue).value;
    PitchIsDwordFormula(d.info.width, d.info.bitCount);
  }

  // ----------------------------------------------------------------------
  // Geometry accessors

  /** FreeImage_HasRGBMasks */
  predicate HasRgbMasks(b: Dib)
  {
    b.info.compression == BiBitfields
  }

  /** `(bits + 7) / 8` where both the product giving `bits` and the sum wrap
      at 2^32, as unsigned arithmetic does. */
  function WrappedLine(bits: nat): (r: nat)
    ensures r < 0x2000_0000
    ensures bits + 7 < TwoTo32 ==> 8 * r >= bits && 8 * r < bits + 8
  {
    ((bits % TwoTo32 + 7) % TwoTo32) / 8
  }

  /** FreeImage_GetLine: `(width * bpp + 7) / 8` in unsigned 32-bit arithmetic. */
  function GetLine(b: Dib): (r: nat)
    ensures r < 0x2000_0000
    ensures b.info.width * b.info.bitCount + 7 < TwoTo32 ==>
              r == LineBytes(b.info.width, b.info.bitCount)
  {
    WrappedLine(b.info.width * b.info.bitCount)
  }

  /** FreeImage_GetPitch: the stored pitch of a wrapped buffer, otherwise the
      line padded to 4 bytes. */
  function GetPitch(b: Dib): (r: nat)
    ensures b.externalBits.Some? ==> r == b.externalPitch
    ensures b.externalBits.None? ==> r % 4 == 0 && GetLine(b) <= r < GetLine(b) + 4
  {
    if b.externalBits.Some? then b.externalPitch else PitchOf(GetLine(b))
  }

  /** Without wrap-around, the accessors agree with the layout calculator. */
  lemma PitchMatchesLayout(b: Dib)
    requires b.externalBits.None?
    requires b.info.width * b.info.bitCount + 7 < TwoTo32
    ensures GetLine(b) == LineBytes(b.info.width, b.info.bitCount)
    ensures GetPitch(b) == PitchOf(LineBytes(b.info.width, b.info.bitCount))
    ensures GetPitch(b) == DwordPitch(b.info.width, b.info.bitCount)
  {
    PitchIsDwordFormula(b.info.width, b.info.bitCount);
  }

  /** FreeImage_GetLine as intended: the product width·bpp taken without
      wrap-around, as the allocator's size calculation takes it. */
  function GetLineWide(b: Dib): (r: nat)
    ensures 8 * r >= b.info.width * b.info.bitCount
    ensures 8 * r < b.info.width * b.info.bitCount + 8
  {
    LineBytes(b.info.width, b.info.bitCount)
  }

  /** A row of 2^28 pixels at 32 bits is 2^30 bytes and the allocator accepts
      it, but the 32-bit product width·bpp wraps to 0, so the accessor reports
      a line and a pitch of 0 bytes. */
  lemma WideLineWraps(hdr: nat)
    requires hdr <= 0x1_0000
    ensures var r := AllocateBitmap(hdr, false, None, 0, Standard, 0x1000_0000, 1, 32, 0, 0, 0);
            && r.Some?
            && GetLine(r.value) == 0 && GetPitch(r.value) == 0
            && GetLineWide(r.value) == 0x4000_0000
  {
    var w: nat := 0x1000_0000;
    assert LineBytes(w, 32) == 0x4000_0000;
    assert PitchOf(0x4000_0000) == 0x4000_0000;
    assert RowBytes(w, 1, 32) == 0x4000_0000;
    assert !PitchTruncated(w, 1, 32);
    assert InternalImageSize(hdr, false, w, 1, 32, false) != 0;
    var d := AllocateBitmap(hdr, false, None, 0, Standard, 0x1000_0000, 1, 32, 0, 0, 0).value;
    assert d.info.width * d.info.bitCount == 2 * TwoTo32;
  }

  /** With the wide product, every bitmap the allocator returns with its own
      pixels has a line that fits the unsigned result, and `height` padded lines
      fill the block from the pixel address to its end. */
  lemma WideLineFillsBlock(hdr: nat, base: nat, t: ImageType, width: Int32, height: Int32,
                           bpp: Int32, red: UInt32, green: UInt32, blue: UInt32)
    requires base % Alignment == 0
    requires AllocateBitmap(hdr, false, None, 0, t, width, height, bpp, red, green, blue).Some?
    ensures var d := AllocateBitmap(hdr, false, None, 0, t, width, height, bpp,
                                    red, green, blue).value;
            && GetLineWide(d) < PitchLimit
            && GetBits(d, base, hdr).value + PitchOf(GetLineWide(d)) * d.info.height
               == base + BlockSize(hdr, d)
  {
    var d := AllocateBitmap(hdr, false, None, 0, t, width, height, bpp, red, green, blue).value;
    AllocatedPitchFits(hdr, t, width, height, bpp, red, green, blue);
    PixelAddressAgrees(base, hdr, d.info.bitCount, d.masks.Some?);
    FullSizeIsHeaderPlusRows(hdr, d.info.width, d.info.height, d.info.bitCount, d.masks.Some?);
  }

  /** FreeImage_GetBits on a block at `base`: no pixels, the wrapped buffer, or
      the first aligned address after the palette or masks. */
  function GetBits(b: Dib, base: nat, hdr: nat): (r: Option<nat>)
    ensures !b.hasPixels ==> r.None?
    ensures b.hasPixels && b.externalBits.Some? ==> r == b.externalBits
    ensures b.hasPixels && b.externalBits.None? ==> r.Some? && r.value % Alignment == 0
  {
    if !b.hasPixels then None
    else if b.externalBits.Some? then b.externalBits
    else Some(PixelAddress(InfoHeaderAddress(base, hdr), b.info.colorsUsed, HasRgbMasks(b)))
  }

  /** The pixel rows of an owned bitmap start where the header-only block ends and
      fill the rest of the block exactly. */
  lemma PixelsFillBlock(b: Dib, base: nat, hdr: nat)
    requires Valid(b) && b.hasPixels && b.externalBits.None?
    requires base % Alignment == 0
    requires BlockSize(hdr, b) != 0
    requires b.info.width * b.info.bitCount + 7 < TwoTo32
    ensures GetBits(b, base, hdr)
            == Some(base + InternalImageSize(hdr, true, b.info.width, b.info.height,
                                             b.info.bitCount, b.masks.Some?))
    ensures GetBits(b, base, hdr).value + GetPitch(b) * b.info.height == base + BlockSize(hdr, b)
  {
    PixelAddressAgrees(base, hdr, b.info.bitCount, b.masks.Some?);
    PitchMatchesLayout(b);
    FullSizeIsHeaderPlusRows(hdr, b.info.width, b.info.height, b.info.bitCount, b.masks.Some?);
  }

  // ----------------------------------------------------------------------
  // Channel masks

  /** FreeImage_GetRGBMasks: the masks stored after the info header, present
      exactly when the header says BI_BITFIELDS. */
  function RgbMasks(b: Dib): (r: Option<Masks>)
    requires Valid(b)
    ensures r.Some? <==> b.imageType == Standard && b.info.bitCount == 16
    ensures r.Some? ==> r == b.masks
  {
    if HasRgbMasks(b) then b.masks else None
  }

  /** FreeImage_GetRedMask: a 16-bit standard bitmap reports its stored mask, a
      24- or 32-bit one the fixed BGRA layout, every other bitmap none. */
  function RedMask(b: Dib): (r: UInt32)
    requires Valid(b)
    ensures b.imageType == Standard && b.info.bitCount == 16 ==> r == b.masks.value.red
    ensures b.imageType == Standard && b.info.bitCount in {24, 32} ==> r == RgbaRedMask
    ensures b.imageType != Standard || b.info.bitCount < 16 ==> r == 0
  {
    if b.imageType != Standard then 0
    else match RgbMasks(b)
      case Some(m) => m.red
      case None => if b.info.bitCount >= 24 then RgbaRedMask else 0
  }

  /** FreeImage_GetGreenMask */
  function GreenMask(b: Dib): (r: UInt32)
    requires Valid(b)
    ensures b.imageType == Standard && b.info.bitCount == 16 ==> r == b.masks.value.green
    ensures b.imageType == Standard && b.info.bitCount in {24, 32} ==> r == RgbaGreenMask
    ensures b.imageType != Standard || b.info.bitCount < 16 ==> r == 0
  {
    if b.imageType != Standard then 0
    else match RgbMasks(b)
      case Some(m) => m.green
      case None => if b.info.bitCount >= 24 then RgbaGreenMask else 0
  }

  /** FreeImage_GetBlueMask */
  function BlueMask(b: Dib): (r: UInt32)
    requires Valid(b)
    ensures b.imageType == Standard && b.info.bitCount == 16 ==> r == b.masks.value.blue
    ensures b.imageType == Standard && b.info.bitCount in {24, 32} ==> r == RgbaBlueMask
    ensures b.imageType != Standard || b.info.bitCount < 16 ==> r == 0
  {
    if b.imageType != Standard then 0
    else match RgbMasks(b)
      case Some(m) => m.blue
      case None => if b.info.bitCount >= 24 then RgbaBlueMask else 0
  }

  /** The masks given to a 16-bit allocation are the masks read back; a 24/32-bit
      bitmap reports the fixed BGRA masks and every other depth none. */
  lemma MasksRoundTrip(hdr: nat, width: Int32, height: Int32, bpp: Int32,
                       red: UInt32, green: UInt32, blue: UInt32)
    requires AllocateBitmap(hdr, false, None, 0, Standard, width, height, bpp, red, green, blue).Some?
    ensures var d := AllocateBitmap(hdr, false, None, 0, Standard, width, height, bpp,
                                    red, green, blue).value;
            && (bpp == 16 ==> RedMask(d) == red && GreenMask(d) == green && BlueMask(d) == blue)
            && (bpp == 24 || bpp == 32 ==>
                  RedMask(d) == RgbaRedMask && GreenMask(d) == RgbaGreenMask
                  && BlueMask(d) == RgbaBlueMask)
            && (bpp != 16 && bpp != 24 && bpp != 32 ==>
                  RedMask(d) == 0 && GreenMask(d) == 0 && BlueMask(d) == 0)
  {
  }

  // ----------------------------------------------------------------------
  // Background colour

  /** FreeImage_HasBackgroundColor: a non-zero alpha marks the colour as set. */
  predicate HasBackgroundColor(b: Dib)
  {
    b.background.alpha != 0
  }

  /** Index of the first of the first `n` palette entries with the colour's
      red, green and blue, or 0 when none matches. */
  function PaletteIndexOf(pal: seq<Rgba>, n: nat, c: Rgba, i: nat): (r: nat)
    requires n <= |pal|
    ensures r == 0 || (i <= r < n && SameRgb(pal[r], c))
    ensures r != 0 ==> forall j :: i <= j < r ==> !SameRgb(pal[j], c)
    ensures (exists j :: i <= j < n && SameRgb(pal[j], c)) && !SameRgb(pal[0], c) ==> r != 0
    decreases n - i
  {
    if i >= n then 0
    else if SameRgb(pal[i], c) then i
    else PaletteIndexOf(pal, n, c, i + 1)
  }

  predicate SameRgb(a: Rgba, b: Rgba)
  {
    a.red == b.red && a.green == b.green && a.blue == b.blue
  }

  /** FreeImage_GetBackgroundColor: the stored colour, whose alpha carries the
      palette index of that colour in an 8-bit image (0 when not found or not
      8-bit). */
  function GetBackgroundColor(b: Dib): (r: Option<Rgba>)
    requires Valid(b)
    ensures r.Some? <==> HasBackgroundColor(b)
    ensures r.Some? ==> SameRgb(r.value, b.background)
    ensures r.Some? && b.info.bitCount != 8 ==> r.value.alpha == 0
    ensures r.Some? && b.info.bitCount == 8 && r.value.alpha != 0 ==>
              SameRgb(b.palette[r.value.alpha], b.background)
              && forall j :: 0 <= j < r.value.alpha ==> !SameRgb(b.palette[j], b.background)
    ensures r.Some? && b.info.bitCount == 8 && r.value.alpha == 0 ==>
              SameRgb(b.palette[0], b.background)
              || forall j :: 0 <= j < |b.palette| ==> !SameRgb(b.palette[j], b.background)
  {
    if !HasBackgroundColor(b) then None
    else
      var index := if b.info.bitCount == 8
                   then PaletteIndexOf(b.palette, b.info.colorsUsed, b.background, 0) else 0;
      Some(b.background.(alpha := index))
  }

  /** FreeImage_SetBackgroundColor: a colour is stored with alpha 1 to mark it
      valid; None clears it. */
  function SetBackgroundColor(b: Dib, c: Option<Rgba>): (r: Dib)
    ensures c.Some? ==> HasBackgroundColor(r) && SameRgb(r.background, c.value)
    ensures c.None? ==> !HasBackgroundColor(r)
    ensures r.(background := b.background) == b
  {
    match c
    case Some(color) => b.(background := color.(alpha := 1))
    case None => b.(background := Rgba(0, 0, 0, 0))
  }

  lemma BackgroundRoundTrip(b: Dib, c: Rgba)
    requires Valid(b)
    ensures var got := GetBackgroundColor(SetBackgroundColor(b, Some(c)));
            got.Some? && SameRgb(got.value, c)
            && (b.info.bitCount != 8 ==> got.value.alpha == 0)
    ensures GetBackgroundColor(SetBackgroundColor(b, None)).None?
  {
  }

  // ----------------------------------------------------------------------
  // Transparency

  /** FreeImage_SetTransparent: only depths up to 8 and 32 keep the flag. */
  function SetTransparent(b: Dib, enabled: bool): (r: Dib)
    ensures r.transparent <==> enabled && (b.info.bitCount <= 8 || b.info.bitCount == 32)
    ensures r.(transparent := b.transparent) == b
  {
    if b.info.bitCount <= 8 || b.info.bitCount == 32 then b.(transparent := enabled)
    else b.(transparent := false)
  }

  function Min(a: int, b: int): int { if a < b then a else b }
  function Max(a: int, b: int): int { if a > b then a else b }

  /** MAX(0, MIN(count, 256)) */
  function ClampCount(count: int): (r: TransparencyCount)
    ensures 0 <= count <= 256 ==> r == count
    ensures count < 0 ==> r == 0
    ensures count > 256 ==> r == 256
  {
    Max(0, Min(count, 256))
  }

  /** FreeImage_SetTransparencyTable: on a palettised image, the first `count`
      entries (clamped to 0..256) come from `table`, or become opaque when no
      table is given; the rest of the table is kept. Other depths are untouched. */
  function SetTransparencyTable(b: Dib, table: Option<seq<Byte>>, count: int): (r: Dib)
    requires b.info.bitCount <= 8 && table.Some? ==> |table.value| >= ClampCount(count)
    ensures b.info.bitCount > 8 ==> r == b
    ensures b.info.bitCount <= 8 ==>
              && r.transparencyCount == ClampCount(count)
              && (r.transparent <==> ClampCount(count) > 0)
              && (forall i :: 0 <= i < ClampCount(count) ==>
                    r.transparentTable[i] == (if table.Some? then table.value[i] else 0xFF))
              && (forall i :: ClampCount(count) <= i < 256 ==>
                    r.transparentTable[i] == b.transparentTable[i])
    ensures r.(transparent := b.transparent, transparencyCount := b.transparencyCount,
               transparentTable := b.transparentTable) == b
  {
    var n := ClampCount(count);
    if b.info.bitCount <= 8 then
      var head := if table.Some? then table.value[..n] else seq(n, _ => 0xFF);
      b.(transparent := n > 0, transparencyCount := n, transparentTable := head + b.transparentTable[n..])
    else
      b
  }

  /** FreeImage_SetTransparentIndex: a table as long as the palette, opaque
      everywhere except at `index` when that is a palette index. */
  function SetTransparentIndex(b: Dib, index: int): (r: Dib)
    ensures b.info.colorsUsed == 0 ==> r == b
  {
    var count := b.info.colorsUsed;
    if count == 0 then b
    else
      var table := seq(count, i => if 0 <= index < count && i == index then 0 else 0xFF);
      SetTransparencyTable(b, Some(table), count)
  }

  /** Index of the first zero among entries i..count-1, or -1. */
  function FirstZero(tt: seq<Byte>, count: nat, i: nat): (r: int)
    requires count <= |tt|
    ensures r == -1 || (i <= r < count && tt[r] == 0)
    ensures r == -1 <==> forall j :: i <= j < count ==> tt[j] != 0
    ensures r != -1 ==> forall j :: i <= j < r ==> tt[j] != 0
    decreases count - i
  {
    if i >= count then -1
    else if tt[i] == 0 then i
    else FirstZero(tt, count, i + 1)
  }

  /** FreeImage_GetTransparentIndex: the first fully transparent entry within the
      transparency count, -1 if there is none. */
  function GetTransparentIndex(b: Dib): (r: int)
    ensures r == -1 <==> forall j :: 0 <= j < b.transparencyCount ==> b.transparentTable[j] != 0
    ensures r != -1 ==> 0 <= r < b.transparencyCount && b.transparentTable[r] == 0
                        && forall j :: 0 <= j < r ==> b.transparentTable[j] != 0
  {
    FirstZero(b.transparentTable, b.transparencyCount, 0)
  }

  /** On a palettised image, setting a transparent index and reading it back
      returns the index when it is a palette index and -1 otherwise; the image is
      flagged transparent either way. */
  lemma TransparentIndexRoundTrip(b: Dib, index: int)
    requires b.info.bitCount <= 8
    requires 0 < b.info.colorsUsed <= 256
    ensures GetTransparentIndex(SetTransparentIndex(b, index))
            == (if 0 <= index < b.info.colorsUsed then index else -1)
    ensures SetTransparentIndex(b, index).transparent
    ensures SetTransparentIndex(b, index).transparencyCount == b.info.colorsUsed
  {
    var n := b.info.colorsUsed;
    var r := SetTransparentIndex(b, index);
    assert ClampCount(n) == n;
    assert forall j :: 0 <= j < n ==> r.transparentTable[j] == (if 0 <= index < n && j == index then 0 else 0xFF);
    var got := GetTransparentIndex(r);
    if 0 <= index < n {
      assert r.transparentTable[index] == 0;
      assert got != -1;
      assert got == index;
    } else {
      assert forall j :: 0 <= j < n ==> r.transparentTable[j] != 0;
    }
  }

  // ----------------------------------------------------------------------
  // Resolution

  /** FreeImage_SetDotsPerMeterX */
  function SetDotsPerMeterX(b: Dib, res: UInt32): (r: Dib)
    ensures r.info.xPelsPerMeter == res
    ensures r.(info := r.info.(xPelsPerMeter := b.info.xPelsPerMeter)) == b
  {
    b.(info := b.info.(xPelsPerMeter := res))
  }

  /** FreeImage_SetDotsPerMeterY */
  function SetDotsPerMeterY(b: Dib, res: UInt32): (r: Dib)
    ensures r.info.yPelsPerMeter == res
    ensures r.(info := r.info.(yPelsPerMeter := b.info.yPelsPerMeter)) == b
  {
    b.(info := b.info.(yPelsPerMeter := res))
  }

  // ----------------------------------------------------------------------
  // ICC profile (buffer handling aside)

  /** FreeImage_DestroyICCProfile: drops the bytes, keeps the flags, and deletes
      the EXIF "InterColorProfile" tag. */
  function DestroyIccProfile(b: Dib): (r: Dib)
    ensures r.icc.data == [] && r.icc.cmyk == b.icc.cmyk && r.icc.yuv == b.icc.yuv
    ensures Lookup(r.metadata, ModelExifMain, "InterColorProfile").None?
    ensures forall m, k :: (m != ModelExifMain || k != "InterColorProfile") ==>
              Lookup(r.metadata, m, k) == Lookup(b.metadata, m, k)
    ensures r.(icc := b.icc, metadata := b.metadata) == b
  {
    b.(icc := b.icc.(data := []), metadata := DeleteTag(b.metadata, ModelExifMain, "InterColorProfile"))
  }

  /** FreeImage_CreateICCProfile: replaces the bytes, keeps the flags. */
  function CreateIccProfile(b: Dib, data: seq<Byte>): (r: Dib)
    ensures r.icc == b.icc.(data := data)
    ensures r == DestroyIccProfile(b).(icc := r.icc)
  {
    var cleared := DestroyIccProfile(b);
    if |data| > 0 then cleared.(icc := cleared.icc.(data := data)) else cleared
  }

  // ----------------------------------------------------------------------
  // Metadata copy between bitmaps

  /** FreeImage_CloneMetadata: copies every model but the animation one and both
      resolutions. */
  function CloneMetadata(dst: Dib, src: Dib): (r: Dib)
    ensures r.info.xPelsPerMeter == src.info.xPelsPerMeter
    ensures r.info.yPelsPerMeter == src.info.yPelsPerMeter
    ensures forall m :: m in src.metadata && m != ModelAnimation ==>
              m in r.metadata && r.metadata[m] == src.metadata[m]
    ensures forall m :: m !in src.metadata || m == ModelAnimation ==>
              (m in r.metadata <==> m in dst.metadata)
              && (m in dst.metadata ==> r.metadata[m] == dst.metadata[m])
    ensures r.(metadata := dst.metadata,
               info := r.info.(xPelsPerMeter := dst.info.xPelsPerMeter,
                               yPelsPerMeter := dst.info.yPelsPerMeter)) == dst
  {
    var copied := SetDotsPerMeterX(dst.(metadata := CopyModels(dst.metadata, src.metadata)),
                                   src.info.xPelsPerMeter);
    SetDotsPerMeterY(copied, src.info.yPelsPerMeter)
  }

  // ----------------------------------------------------------------------
  // FreeImage_Clone and FreeImage_SetThumbnail

  /** The bitmap and its thumbnails own their pixel buffers, and every thumbnail
      has pixels (as SetThumbnail guarantees). */
  predicate Owned(b: Dib)
    decreases b
  {
    && b.externalBits.None? && b.externalPitch == 0
    && (b.thumbnail.Some? ==> b.thumbnail.value.hasPixels && Owned(b.thumbnail.value))
  }

  /** The allocation Clone makes for `b` and for each thumbnail succeeds. */
  predicate Clonable(hdr: nat, b: Dib)
    decreases b
  {
    && InternalImageSize(hdr, !b.hasPixels, b.info.width, b.info.height, b.info.bitCount,
                         b.masks.Some?) != 0
    && (b.thumbnail.Some? && b.thumbnail.value.hasPixels ==> Clonable(hdr, b.thumbnail.value))
  }

  /** FreeImage_Clone: a fresh allocation of the same type and geometry, the whole
      header copied, the external buffer materialised into owned pixels, the
      thumbnail cloned when it has pixels; metadata and ICC bytes are copied. */
  function Clone(hdr: nat, b: Dib): (r: Option<Dib>)
    requires Valid(b)
    ensures r.Some? <==> InternalImageSize(hdr, !b.hasPixels, b.info.width, b.info.height,
                                           b.info.bitCount, b.masks.Some?) != 0
    ensures r.Some? ==> Valid(r.value)
    ensures r.Some? ==>
              && r.value.imageType == b.imageType && r.value.info == b.info
              && r.value.palette == b.palette && r.value.masks == b.masks
              && r.value.icc == b.icc && r.value.metadata == b.metadata
              && r.value.hasPixels == b.hasPixels
              && r.value.transparentTable == b.transparentTable
              && r.value.transparencyCount == b.transparencyCount
              && r.value.transparent == b.transparent
              && r.value.background == b.background
    ensures r.Some? ==> r.value.externalBits.None? && GetPitch(r.value) == PitchOf(GetLine(b))
    ensures r.Some? && r.value.thumbnail.Some? ==>
              r.value.thumbnail.value.hasPixels && r.value.thumbnail.value.externalBits.None?
    ensures r.Some? && b.thumbnail.Some? && b.thumbnail.value.hasPixels ==>
              r.value.thumbnail == Clone(hdr, b.thumbnail.value)
    ensures r.Some? && (b.thumbnail.None? || !b.thumbnail.value.hasPixels) ==>
              r.value.thumbnail.None?
    decreases b
  {
    var alloc := AllocateBitmap(hdr, !b.hasPixels, None, 0, b.imageType, b.info.width,
                                b.info.height, b.info.bitCount,
                                RedMask(b), GreenMask(b), BlueMask(b));
    if alloc.None? then None
    else
      var thumb := match b.thumbnail
                   case None => None
                   case Some(t) => if t.hasPixels then Clone(hdr, t) else None;
      Some(b.(externalBits := None, externalPitch := 0, thumbnail := thumb))
  }

  /** Cloning an owned bitmap whose allocations succeed gives an equal value:
      the copy is deep and complete. */
  lemma {:induction false} CloneOfOwnedIsEqual(hdr: nat, b: Dib)
    requires Valid(b) && Owned(b) && Clonable(hdr, b)
    ensures Clone(hdr, b) == Some(b)
    decreases b
  {
    if b.thumbnail.Some? {
      CloneOfOwnedIsEqual(hdr, b.thumbnail.value);
    }
  }

  /** FreeImage_SetThumbnail: the same thumbnail is kept; otherwise a clone of the
      new one replaces the old when it has pixels, and nothing does when it has
      none (or is null). */
  function SetThumbnail(hdr: nat, b: Dib, t: Option<Dib>): (r: Dib)
    requires Valid(b)
    requires t.Some? ==> Valid(t.value)
    ensures Valid(r)
    ensures r.(thumbnail := b.thumbnail) == b
    ensures b.thumbnail == t ==> r == b
    ensures b.thumbnail != t && t.Some? && t.value.hasPixels ==> r.thumbnail == Clone(hdr, t.value)
    ensures b.thumbnail != t && (t.None? || !t.value.hasPixels) ==> r.thumbnail.None?
    ensures b.thumbnail != t && r.thumbnail.Some? ==>
              r.thumbnail.value.hasPixels && r.thumbnail.value.externalBits.None?
  {
    if b.thumbnail == t then b
    else b.(thumbnail := if t.Some? && t.value.hasPixels then Clone(hdr, t.value) else None)
  }

  /** Setting an owned thumbnail with pixels and reading it back gives it back. */
  lemma ThumbnailRoundTrip(hdr: nat, b: Dib, t: Dib)
    requires Valid(b) && Valid(t) && Owned(t) && Clonable(hdr, t) && t.hasPixels
    ensures SetThumbnail(hdr, b, Some(t)).thumbnail == Some(t)
  {
    CloneOfOwnedIsEqual(hdr, t);
  }
}

=== FILE: keyorder.dfy ===
/**
  The order of a std::map<std::string, ...>: lexicographic comparison of the
  characters, a proper prefix before any of its extensions. The metadata store
  and its cursor visit keys in this order.
*/
module KeyOrder {

  /** std::string::compare(a, b) < 0 */
  predicate Less(a: string, b: string)
    decreases |a|
  {
    if |a| == 0 then |b| > 0
    else |b| > 0 && (a[0] < b[0] || (a[0] == b[0] && Less(a[1..], b[1..])))
  }

  lemma {:induction false} LessIrreflexive(a: string)
    ensures !Less(a, a)
    decreases |a|
  {
    if |a| > 0 {
      LessIrreflexive(a[1..]);
    }
  }

  lemma {:induction false} LessTransitive(a: string, b: string, c: string)
    requires Less(a, b) && Less(b, c)
    ensures Less(a, c)
    decreases |a|
  {
    if |a| > 0 && a[0] == b[0] && b[0] == c[0] {
      LessTransitive(a[1..], b[1..], c[1..]);
    }
  }

  /** Any two distinct keys are ordered one way or the other. */
  lemma {:induction false} LessTotal(a: string, b: string)
    ensures a == b || Less(a, b) || Less(b, a)
    decreases |a|
  {
    if |a| > 0 && |b| > 0 && a[0] == b[0] {
      LessTotal(a[1..], b[1..]);
      if a[1..] == b[1..] {
        assert a == [a[0]] + a[1..] && b == [b[0]] + b[1..];
      }
    }
  }

  lemma LessAsymmetric(a: string, b: string)
    requires Less(a, b)
    ensures !Less(b, a)
  {
    if Less(b, a) {
      LessTransitive(a, b, a);
      LessIrreflexive(a);
    }
  }

  /** `m` precedes every other key of `s`. */
  ghost predicate IsLeast(m: string, s: set<string>)
  {
    m in s && forall k :: k in s && k != m ==> Less(m, k)
  }

  lemma {:induction false} LeastExists(s: set<string>)
    requires s != {}
    ensures exists m :: IsLeast(m, s)
    decreases |s|
  {
    var x :| x in s;
    if s == {x} {
      assert IsLeast(x, s);
    } else {
      LeastExists(s - {x});
      var y :| IsLeast(y, s - {x});
      LessTotal(x, y);
      if Less(x, y) {
        forall k | k in s && k != x
          ensures Less(x, k)
        {
          if k != y {
            LessTransitive(x, y, k);
          }
        }
        assert IsLeast(x, s);
      } else {
        assert IsLeast(y, s);
      }
    }
  }

  /** The smallest key of a non-empty key set (std::map::begin). */
  ghost function MinKey(s: set<string>): (m: string)
    requires s != {}
    ensures IsLeast(m, s)
  {
    LeastExists(s);
    var m :| IsLeast(m, s);
    m
  }

  /** Strictly ascending, hence without duplicates. */
  ghost predicate StrictlySorted(ks: seq<string>)
  {
    forall i, j :: 0 <= i < j < |ks| ==> Less(ks[i], ks[j])
  }

  lemma SortedHasNoDuplicates(ks: seq<string>, i: int, j: int)
    requires StrictlySorted(ks)
    requires 0 <= i < |ks| && 0 <= j < |ks| && i != j
    ensures ks[i] != ks[j]
  {
    if i < j {
      LessIrreflexive(ks[i]);
    } else {
      LessIrreflexive(ks[j]);
    }
  }

  /** The keys of a map in the order a std::map iterates them. */
  ghost function SortedKeys(s: set<string>): (ks: seq<string>)
    ensures StrictlySorted(ks)
    ensures |ks| == |s|
    ensures forall k :: k in s <==> k in ks
    decreases |s|
  {
    if s == {} then []
    else
      var m := MinKey(s);
      var rest := SortedKeys(s - {m});
      assert forall j :: 0 <= j < |rest| ==> Less(m, rest[j]) by {
        forall j | 0 <= j < |rest|
          ensures Less(m, rest[j])
        {
          assert rest[j] in rest;
          assert rest[j] in s - {m};
        }
      }
      [m] + rest
  }

  /** The ascending enumeration of a key set is unique. */
  lemma {:induction false} SortedUnique(s: set<string>, ks: seq<string>)
    requires StrictlySorted(ks)
    requires forall k :: k in s <==> k in ks
    ensures ks == SortedKeys(s)
    decreases |ks|
  {
    if ks == [] {
      assert s == {};
    } else {
      assert ks[0] in s;
      var m := MinKey(s);
      assert ks[0] == m by {
        assert ks[0] in s;
        if ks[0] != m {
          var j :| 0 <= j < |ks| && ks[j] == m;
          assert j != 0;
          assert Less(ks[0], m);
          assert Less(m, ks[0]);
          LessAsymmetric(m, ks[0]);
        }
      }
      forall k
        ensures k in s - {m} <==> k in ks[1..]
      {
        if k in ks[1..] {
          var j :| 1 <= j < |ks| && ks[j] == k;
          SortedHasNoDuplicates(ks, 0, j);
        }
        if k in s - {m} {
          assert k in ks;
          assert k != ks[0];
        }
      }
      SortedUnique(s - {m}, ks[1..]);
      assert ks == [m] + ks[1..];
    }
  }
}

=== FILE: layout.dfy ===
/**
  Layout calculator of a FIBITMAP block.

  One aligned allocation holds, from the lowest address: the object header
  (FREEIMAGEHEADER, whose size depends on the platform and is the parameter `hdr`
  throughout), padding, the 40-byte BITMAPINFOHEADER, the palette or the three
  channel masks, padding, and the pixel rows. Offsets here are relative to the
  start of the block unless a function takes the block's `base` address.
*/
module Layout {

  /** FIBITMAP_ALIGNMENT */
  const Alignment: nat := 16
  /** sizeof(FIBITMAPINFOHEADER), the Windows BITMAPINFOHEADER layout */
  const InfoHeaderSize: nat := 40
  /** sizeof(FIRGBA8), one palette entry */
  const PaletteEntrySize: nat := 4
  /** three uint32_t channel masks of a 16-bit bitmap */
  const MaskBytes: nat := 12
  /** (size_t)-1 on a 64-bit platform */
  const SizeMax: nat := 0xFFFF_FFFF_FFFF_FFFF
  /** FIBITMAP_MAX_MEMORY: the allocator's safety margin is 8 alignments */
  const MaxMemory: nat := SizeMax - 8 * Alignment
  /** CalculatePitch returns an `unsigned`: pitches from here on do not fit */
  const PitchLimit: nat := 0x1_0000_0000

  /** `x` rounded up to the next multiple of the alignment, written as the source
      writes it: add the distance to the boundary when there is one. */
  function PadToAlignment(x: nat): (r: nat)
    ensures r % Alignment == 0
    ensures x <= r < x + Alignment
  {
    x + (if x % Alignment != 0 then Alignment - x % Alignment else 0)
  }

  function Pow2(n: nat): (r: nat)
    ensures r > 0
  {
    if n == 0 then 1 else 2 * Pow2(n - 1)
  }

  /** CalculateUsedPaletteEntries: a palettised depth (1..8 bits) uses 2^bpp
      entries, every other depth none. */
  function PaletteEntries(bpp: nat): (r: nat)
    ensures r > 0 <==> 1 <= bpp <= 8
    ensures r <= 256
  {
    if 1 <= bpp <= 8 then PowBound(bpp); Pow2(bpp) else 0
  }

  lemma {:induction false} PowMonotone(n: nat, m: nat)
    requires n <= m
    ensures Pow2(n) <= Pow2(m)
  {
    if n < m {
      PowMonotone(n, m - 1);
    }
  }

  lemma PowBound(n: nat)
    requires n <= 8
    ensures Pow2(n) <= 256
  {
    PowMonotone(n, 8);
    assert Pow2(8) == 256;
  }

  /** CalculateLine: bytes needed for one row of `width` pixels of `bpp` bits,
      i.e. the number of bits rounded up to whole bytes. */
  function LineBytes(width: nat, bpp: nat): (r: nat)
    ensures 8 * r >= width * bpp
    ensures 8 * r < width * bpp + 8
  {
    (width * bpp + 7) / 8
  }

  /** CalculatePitch: `(line + 3) & ~3`, the row size padded to a 4-byte boundary
      (clearing the two low bits of a non-negative number subtracts its
      remainder modulo 4). */
  function PitchOf(line: nat): (r: nat)
    ensures r % 4 == 0
    ensures line <= r < line + 4
  {
    (line + 3) - (line + 3) % 4
  }

  /** Offset of the info header: the object header padded to the alignment, plus
      the padding that makes the END of the 40-byte info header aligned. */
  function InfoHeaderOffset(hdr: nat): (r: nat)
    ensures hdr <= r
    ensures (r + InfoHeaderSize) % Alignment == 0
  {
    PadToAlignment(hdr) + (Alignment - InfoHeaderSize % Alignment)
  }

  /** Offset of the palette (or of the channel masks), right after the info header. */
  function PaletteOffset(hdr: nat): (r: nat)
    ensures r % Alignment == 0
    ensures r >= hdr + InfoHeaderSize
  {
    InfoHeaderOffset(hdr) + InfoHeaderSize
  }

  /** Size of a header-only block: headers, palette entries and masks, padded. */
  function HeaderOnlySize(hdr: nat, bpp: nat, needMasks: bool): (r: nat)
    ensures r % Alignment == 0
    ensures r >= PaletteOffset(hdr) + PaletteEntrySize * PaletteEntries(bpp)
                 + (if needMasks then MaskBytes else 0)
  {
    PadToAlignment(PaletteOffset(hdr) + PaletteEntrySize * PaletteEntries(bpp)
                   + (if needMasks then MaskBytes else 0))
  }

  /** FreeImage_GetInternalImageSize: the block size, or 0 when the full size would
      exceed the allocator's ceiling. The pitch reaches the size as an `unsigned`,
      so a pitch of 2^32 or more arrives truncated; the floating-point recomputation
      of the size then disagrees with the integer one and the size is refused. */
  function InternalImageSize(hdr: nat, headerOnly: bool, width: nat, height: nat, bpp: nat,
                             needMasks: bool): (r: nat)
    ensures r <= MaxMemory || headerOnly
    ensures headerOnly ==> r > 0 && r % Alignment == 0
    ensures !headerOnly && r != 0 ==>
              r - HeaderOnlySize(hdr, bpp, needMasks) == DwordPitch(width, bpp) * height
    ensures !headerOnly && r != 0 && height > 0 ==> DwordPitch(width, bpp) < PitchLimit
  {
    var header := HeaderOnlySize(hdr, bpp, needMasks);
    if headerOnly then
      header
    else
      var rows := RowBytes(width, height, bpp);
      if PitchTruncated(width, height, bpp) || header + rows > MaxMemory then 0
      else header + rows
  }

  /** The truncated pitch changes the row bytes: there is at least one row and
      the pitch does not fit in 32 bits. */
  predicate PitchTruncated(width: nat, height: nat, bpp: nat)
  {
    height > 0 && PitchOf(LineBytes(width, bpp)) >= PitchLimit
  }

  /** The pixel rows of a full block: `height` padded lines. */
  function RowBytes(width: nat, height: nat, bpp: nat): (r: nat)
    ensures r == DwordPitch(width, bpp) * height
  {
    RowsAreDwordRows(width, height, bpp);
    PitchOf(LineBytes(width, bpp)) * height
  }

  /** The pixel-row stride as the overflow check recomputes it:
      floor((bpp * width + 31) / 32) * 4, whole 32-bit words per row. */
  function DwordPitch(width: nat, bpp: nat): nat
  {
    ((bpp * width + 31) / 32) * 4
  }

  /** The integer pitch equals the DWORD-rounded formula the source recomputes in
      floating point: ceil(ceil(bits / 8) / 4) * 4 == ceil(bits / 32) * 4. */
  lemma PitchIsDwordFormula(width: nat, bpp: nat)
    ensures PitchOf(LineBytes(width, bpp)) == DwordPitch(width, bpp)
  {
    var p := width * bpp;
    assert p == bpp * width;
    var line := LineBytes(width, bpp);
    var q := (p + 31) / 32;
    assert 32 * q <= p + 31 < 32 * q + 32;
    assert 8 * line >= p && 8 * line < p + 8;
    assert line <= 4 * q;
    assert line + 3 >= 4 * q;
    assert (line + 3) / 4 == q;
    assert PitchOf(line) == 4 * ((line + 3) / 4);
  }

  lemma RowsAreDwordRows(width: nat, height: nat, bpp: nat)
    ensures PitchOf(LineBytes(width, bpp)) * height == DwordPitch(width, bpp) * height
  {
    PitchIsDwordFormula(width, bpp);
  }

  /** Zero is never a valid header-only size, so it can serve as the failure value:
      a full size is 0 exactly when the pitch was truncated or the block would
      pass the ceiling. */
  lemma FailureIsDistinguishable(hdr: nat, width: nat, height: nat, bpp: nat, needMasks: bool)
    ensures InternalImageSize(hdr, false, width, height, bpp, needMasks) == 0
            <==> (height > 0 && PitchOf(LineBytes(width, bpp)) >= PitchLimit)
                 || HeaderOnlySize(hdr, bpp, needMasks)
                    + PitchOf(LineBytes(width, bpp)) * height > MaxMemory
  {
    assert HeaderOnlySize(hdr, bpp, needMasks) > 0;
    assert RowBytes(width, height, bpp) == PitchOf(LineBytes(width, bpp)) * height;
  }

  /** On the allocator's argument range (positive 31-bit dimensions, at most 128
      bits per pixel, a header of at most 64 KiB) a pitch that fits 32 bits keeps
      the block far below the ceiling, so the size is 0 exactly when the pitch
      was truncated. */
  lemma CeilingOnlyGuardsTruncation(hdr: nat, width: nat, height: nat, bpp: nat, needMasks: bool)
    requires hdr <= 0x1_0000 && height < 0x8000_0000 && bpp <= 128
    ensures InternalImageSize(hdr, false, width, height, bpp, needMasks) == 0
            <==> PitchTruncated(width, height, bpp)
  {
    if !PitchTruncated(width, height, bpp) {
      var pitch := PitchOf(LineBytes(width, bpp));
      assert pitch < PitchLimit || height == 0;
      ProductBound(pitch, height);
      assert RowBytes(width, height, bpp) == pitch * height;
      assert HeaderOnlySize(hdr, bpp, needMasks) <= hdr + 2 * Alignment + InfoHeaderSize
                                                   + PaletteEntrySize * 256 + MaskBytes;
    }
  }

  lemma ProductBound(pitch: nat, height: nat)
    requires pitch < PitchLimit || height == 0
    requires height < 0x8000_0000
    ensures pitch * height < 0x8000_0000_0000_0000
  {
    if height > 0 {
      MulMonotone(pitch, PitchLimit - 1, height);
      MulMonotone(height, 0x7FFF_FFFF, PitchLimit - 1);
      assert (PitchLimit - 1) * 0x7FFF_FFFF < 0x8000_0000_0000_0000;
    }
  }

  lemma MulMonotone(a: nat, c: nat, b: nat)
    requires a <= c
    ensures a * b <= c * b && b * a <= b * c
  {
    var d := c - a;
    assert c * b == a * b + d * b;
  }

  /** A full block is the header-only block followed by `height` padded rows. */
  lemma FullSizeIsHeaderPlusRows(hdr: nat, width: nat, height: nat, bpp: nat, needMasks: bool)
    requires InternalImageSize(hdr, false, width, height, bpp, needMasks) != 0
    ensures InternalImageSize(hdr, false, width, height, bpp, needMasks)
            == InternalImageSize(hdr, true, width, height, bpp, needMasks)
               + PitchOf(LineBytes(width, bpp)) * height
  {
  }

  /** Palette and channel masks never coexist: masks are only needed at 16 bits,
      where no palette entries are used. */
  lemma MasksExcludePalette(hdr: nat, bpp: nat)
    requires bpp == 16
    ensures PaletteEntries(bpp) == 0
    ensures HeaderOnlySize(hdr, bpp, true) - PaletteOffset(hdr) >= MaskBytes
  {
  }

  // ----------------------------------------------------------------------
  // Address arithmetic of the accessors, on absolute addresses

  /** FreeImage_GetInfoHeader on a block starting at `base`. */
  function InfoHeaderAddress(base: nat, hdr: nat): (r: nat)
    ensures r >= base + hdr
  {
    PadToAlignment(base + hdr) + (Alignment - InfoHeaderSize % Alignment)
  }

  /** FreeImage_GetBits for an owned pixel buffer: after the info header, the
      palette entries in use and the masks, padded. */
  function PixelAddress(infoHeader: nat, colorsUsed: nat, hasMasks: bool): (r: nat)
    ensures r % Alignment == 0
    ensures r >= infoHeader + InfoHeaderSize + PaletteEntrySize * colorsUsed
  {
    PadToAlignment(infoHeader + InfoHeaderSize + PaletteEntrySize * colorsUsed
                   + (if hasMasks then MaskBytes else 0))
  }

  lemma {:induction false} PadShift(base: nat, x: nat)
    requires base % Alignment == 0
    ensures PadToAlignment(base + x) == base + PadToAlignment(x)
  {
    assert (base + x) % Alignment == x % Alignment;
  }

  /** On an aligned block the accessors find the info header exactly where the
      size calculation put it. */
  lemma InfoHeaderAddressAgrees(base: nat, hdr: nat)
    requires base % Alignment == 0
    ensures InfoHeaderAddress(base, hdr) == base + InfoHeaderOffset(hdr)
  {
    PadShift(base, hdr);
  }

  /** On an aligned block the pixels start exactly where the header-only size
      ends, provided the info header records the palette size of its depth and
      the masks flag the allocator used. */
  lemma PixelAddressAgrees(base: nat, hdr: nat, bpp: nat, needMasks: bool)
    requires base % Alignment == 0
    ensures PixelAddress(InfoHeaderAddress(base, hdr), PaletteEntries(bpp), needMasks)
            == base + HeaderOnlySize(hdr, bpp, needMasks)
  {
    InfoHeaderAddressAgrees(base, hdr);
    PadShift(base, PaletteOffset(hdr) + PaletteEntrySize * PaletteEntries(bpp)
                   + (if needMasks then MaskBytes else 0));
  }
}

=== FILE: tagstore.dfy ===
/**
  The metadata store of a bitmap: a map from metadata model (FREE_IMAGE_MDMODEL)
  to a tag map ordered by key, together with the set/get/count operations, the
  iteration cursor and the copy of every model but the animation one.

  Tags are values: the library's create/clone/delete of tag objects become plain
  copies, so "a deep copy of t" is "t" here.
*/
module TagStore {

  import opened Wrappers
  import opened Ints
  import opened KeyOrder

  /** FREE_IMAGE_MDMODEL values used by the store */
  const ModelExifMain: int := 1
  const ModelIptc: int := 6
  const ModelAnimation: int := 9

  /** A FITAG as the store sees it. */
  datatype Tag = Tag(key: string, id: UInt16, tagType: nat, count: nat, length: nat,
                     value: seq<Byte>)

  type TagMap = map<string, Tag>
  type MetadataMap = map<int, TagMap>

  /** FreeImage_TagDataWidth: bytes per element of a tag type (external). */
  type DataWidth = nat -> nat
  /** TagLib::getTagID for the IPTC namespace, -1 when the name is unknown (external). */
  type IptcLookup = string -> int

  /** Every stored tag carries the key it is stored under. */
  ghost predicate WellKeyed(md: MetadataMap)
  {
    forall m, k :: m in md && k in md[m] ==> md[m][k].key == k
  }

  function Lookup(md: MetadataMap, model: int, key: string): Option<Tag>
  {
    if model in md && key in md[model] then Some(md[model][key]) else None
  }

  /** The tag's declared byte length agrees with its element count. */
  predicate Consistent(t: Tag, width: DataWidth)
  {
    t.count * width(t.tagType) == t.length
  }

  /** The copy SetMetadata stores: the key forced to the map key and, in the IPTC
      model, the resolved tag ID truncated to 16 bits. */
  function StoredTag(model: int, key: string, t: Tag, iptcId: IptcLookup): (r: Tag)
    ensures r.key == key
    ensures r.tagType == t.tagType && r.count == t.count && r.length == t.length
    ensures r.value == t.value
    ensures model != ModelIptc ==> r.id == t.id
    ensures model == ModelIptc ==> r.id == iptcId(key) % 0x1_0000
    ensures model == ModelIptc && iptcId(key) == -1 ==> r.id == 0xFFFF
  {
    var keyed := t.(key := key);
    if model == ModelIptc then keyed.(id := iptcId(key) % 0x1_0000) else keyed
  }

  // ----------------------------------------------------------------------
  // FreeImage_SetMetadata

  datatype SetOutcome = SetOutcome(ok: bool, store: MetadataMap)

  /** Destroys a whole model (null key). */
  function DeleteModel(md: MetadataMap, model: int): (r: MetadataMap)
    ensures model !in r
    ensures forall m :: m != model ==> (m in r <==> m in md)
    ensures forall m :: m in r ==> r[m] == md[m]
  {
    md - {model}
  }

  /** Removes one key (null tag); a missing model or key is left alone. */
  function DeleteTag(md: MetadataMap, model: int, key: string): (r: MetadataMap)
    ensures Lookup(r, model, key) == None
    ensures forall m, k :: (m != model || k != key) ==> Lookup(r, m, k) == Lookup(md, m, k)
    ensures r.Keys == md.Keys
    ensures model !in md ==> r == md
    ensures WellKeyed(md) ==> WellKeyed(r)
  {
    if model in md then md[model := md[model] - {key}] else md
  }

  /** Stores a tag under a key. The model's tag map is created before the tag is
      checked, so a rejected tag still leaves the (possibly empty) map behind. */
  function PutTag(md: MetadataMap, model: int, key: string, t: Tag, width: DataWidth,
                  iptcId: IptcLookup): (r: SetOutcome)
    ensures r.ok <==> Consistent(t, width)
    ensures r.ok ==> Lookup(r.store, model, key) == Some(StoredTag(model, key, t, iptcId))
    ensures forall m, k :: (m != model || k != key) ==> Lookup(r.store, m, k) == Lookup(md, m, k)
    ensures !r.ok ==> forall m, k :: Lookup(r.store, m, k) == Lookup(md, m, k)
    ensures r.store.Keys == md.Keys + {model}
    ensures WellKeyed(md) ==> WellKeyed(r.store)
  {
    var created := if model in md then md else md[model := map[]];
    if !Consistent(t, width) then
      SetOutcome(false, created)
    else
      SetOutcome(true, created[model := created[model][key := StoredTag(model, key, t, iptcId)]])
  }

  /** FreeImage_SetMetadata on a non-null bitmap. */
  function SetMetadata(md: MetadataMap, model: int, key: Option<string>, tag: Option<Tag>,
                       width: DataWidth, iptcId: IptcLookup): (r: SetOutcome)
    ensures key.None? ==> r.ok && model !in r.store
    ensures key.Some? && tag.None? ==> r.ok && Lookup(r.store, model, key.value) == None
    ensures key.Some? && tag.Some? ==> (r.ok <==> Consistent(tag.value, width))
    ensures r.ok && key.Some? && tag.Some? ==>
              Lookup(r.store, model, key.value) == Some(StoredTag(model, key.value, tag.value, iptcId))
    ensures forall m, k :: m != model ==> Lookup(r.store, m, k) == Lookup(md, m, k)
    ensures forall m :: m != model && m in md ==> m in r.store && r.store[m] == md[m]
    ensures key.Some? ==>
              forall k :: k != key.value ==> Lookup(r.store, model, k) == Lookup(md, model, k)
    ensures key.Some? ==> r.store.Keys == md.Keys + (if tag.Some? then {model} else {})
    ensures key.None? ==> r.store.Keys == md.Keys - {model}
    ensures WellKeyed(md) ==> WellKeyed(r.store)
  {
    match key
    case None => SetOutcome(true, DeleteModel(md, model))
    case Some(k) =>
      match tag
      case None => SetOutcome(true, DeleteTag(md, model, k))
      case Some(t) => PutTag(md, model, k, t, width, iptcId)
  }

  // ----------------------------------------------------------------------
  // FreeImage_GetMetadata and FreeImage_GetMetadataCount

  /** FreeImage_GetMetadata: a null key finds nothing. */
  function GetMetadata(md: MetadataMap, model: int, key: Option<string>): (r: Option<Tag>)
    ensures key.None? ==> r.None?
    ensures r.Some? <==> key.Some? && model in md && key.value in md[model]
    ensures key.Some? ==> r == Lookup(md, model, key.value)
  {
    match key
    case None => None
    case Some(k) => Lookup(md, model, k)
  }

  /** FreeImage_GetMetadataCount */
  function Count(md: MetadataMap, model: int): (r: nat)
    ensures r == 0 <==> model !in md || md[model] == map[]
    ensures model in md ==> r == |md[model].Keys|
  {
    if model in md then |md[model]| else 0
  }

  /** Storing a tag adds one to the count exactly when the key was new. */
  lemma CountAfterPut(md: MetadataMap, model: int, key: string, t: Tag, width: DataWidth,
                      iptcId: IptcLookup)
    requires Consistent(t, width)
    ensures Count(PutTag(md, model, key, t, width, iptcId).store, model)
            == Count(md, model) + (if Lookup(md, model, key).None? then 1 else 0)
  {
    var r := PutTag(md, model, key, t, width, iptcId).store;
    var old_ := if model in md then md[model] else map[];
    assert r[model] == old_[key := StoredTag(model, key, t, iptcId)];
    if key in old_ {
      assert r[model].Keys == old_.Keys;
    } else {
      assert r[model].Keys == old_.Keys + {key};
    }
  }

  /** Removing a key subtracts one from the count exactly when it was present. */
  lemma CountAfterDelete(md: MetadataMap, model: int, key: string)
    ensures Count(DeleteTag(md, model, key), model)
            == Count(md, model) - (if Lookup(md, model, key).Some? then 1 else 0)
  {
    if model in md {
      var r := DeleteTag(md, model, key);
      if key in md[model] {
        assert r[model].Keys == md[model].Keys - {key};
      } else {
        assert r[model].Keys == md[model].Keys;
      }
    }
  }

  /** Set then Get returns the stored copy, whose key is the requested key. */
  lemma SetThenGet(md: MetadataMap, model: int, key: string, t: Tag, width: DataWidth,
                   iptcId: IptcLookup)
    requires Consistent(t, width)
    ensures var r := SetMetadata(md, model, Some(key), Some(t), width, iptcId);
            r.ok && GetMetadata(r.store, model, Some(key)).Some?
            && GetMetadata(r.store, model, Some(key)).value.key == key
            && GetMetadata(r.store, model, Some(key)).value.value == t.value
  {
  }

  /** A rejected tag changes no key-to-tag entry and no count, yet the model it
      was aimed at now exists (possibly empty). */
  lemma FailedSetKeepsEntries(md: MetadataMap, model: int, key: string, t: Tag,
                              width: DataWidth, iptcId: IptcLookup)
    requires !Consistent(t, width)
    ensures var r := SetMetadata(md, model, Some(key), Some(t), width, iptcId);
            && !r.ok
            && (forall m, k :: GetMetadata(r.store, m, Some(k)) == GetMetadata(md, m, Some(k)))
            && (forall m :: Count(r.store, m) == Count(md, m))
            && model in r.store
  {
    var r := SetMetadata(md, model, Some(key), Some(t), width, iptcId);
    forall m
      ensures Count(r.store, m) == Count(md, m)
    {
      if m == model && model !in md {
        assert r.store[model] == map[];
      }
    }
  }

  // ----------------------------------------------------------------------
  // Iteration: FreeImage_FindFirstMetadata / FindNextMetadata

  /** The tags of a map in ascending key order. */
  ghost function TagsInOrder(tm: TagMap): (r: seq<Tag>)
    ensures |r| == |tm|
    ensures forall i :: 0 <= i < |r| ==>
              (SortedKeys(tm.Keys)[i] in tm && r[i] == tm[SortedKeys(tm.Keys)[i]])
  {
    var ks := SortedKeys(tm.Keys);
    seq(|ks|, i requires 0 <= i < |ks| => tm[ks[i]])
  }

  /** METADATAHEADER: the next position and the map being walked. */
  datatype Cursor = Cursor(pos: nat, tags: TagMap)

  /** Result of FindFirstMetadata. `PastEnd` stands for dereferencing the end
      iterator of an empty tag map. */
  datatype FirstResult = NoModel | First(cursor: Cursor, tag: Tag) | PastEnd

  datatype NextResult = Done | Next(tag: Tag, cursor: Cursor)

  /** FindFirstMetadata as written: a present model is assumed non-empty. */
  ghost function FindFirstAsWritten(md: MetadataMap, model: int): (r: FirstResult)
    ensures r.NoModel? <==> model !in md
    ensures r.PastEnd? <==> model in md && |md[model]| == 0
    ensures r.First? ==> r.cursor.pos == 1 && r.cursor.tags == md[model]
                         && r.tag == TagsInOrder(md[model])[0]
  {
    if model !in md then NoModel
    else if |md[model]| == 0 then PastEnd
    else First(Cursor(1, md[model]), TagsInOrder(md[model])[0])
  }

  /** FindFirstMetadata with the emptiness check the source lacks. */
  ghost function FindFirst(md: MetadataMap, model: int): (r: FirstResult)
    ensures !r.PastEnd?
    ensures r.First? <==> Count(md, model) > 0
    ensures r.First? ==> r.cursor.pos == 1 && r.cursor.tags == md[model]
                         && r.tag == TagsInOrder(md[model])[0]
  {
    if model !in md || |md[model]| == 0 then NoModel
    else First(Cursor(1, md[model]), TagsInOrder(md[model])[0])
  }

  /** FindNextMetadata: the tag at the cursor's position, if any, and the advanced cursor. */
  ghost function FindNext(c: Cursor): (r: NextResult)
    ensures r.Done? <==> c.pos >= |c.tags|
    ensures r.Next? ==> r.tag == TagsInOrder(c.tags)[c.pos]
                        && r.cursor == c.(pos := c.pos + 1)
  {
    if c.pos < |c.tags| then Next(TagsInOrder(c.tags)[c.pos], c.(pos := c.pos + 1)) else Done
  }

  /** Every tag FindNext returns from `c` until it reports the end. */
  ghost function Drain(c: Cursor): (r: seq<Tag>)
    ensures |r| == if c.pos < |c.tags| then |c.tags| - c.pos else 0
    decreases |c.tags| - c.pos
  {
    match FindNext(c)
    case Done => []
    case Next(t, c') => [t] + Drain(c')
  }

  /** Draining a cursor yields exactly the tags from its position on, in key order. */
  lemma {:induction false} DrainIsRemainingTags(c: Cursor)
    ensures c.pos <= |c.tags| ==> Drain(c) == TagsInOrder(c.tags)[c.pos..]
    ensures c.pos >= |c.tags| ==> Drain(c) == []
    decreases |c.tags| - c.pos
  {
    if c.pos < |c.tags| {
      var c' := c.(pos := c.pos + 1);
      DrainIsRemainingTags(c');
      var all := TagsInOrder(c.tags);
      assert Drain(c) == [all[c.pos]] + Drain(c');
      assert all[c.pos..] == [all[c.pos]] + all[c.pos + 1..];
    }
  }

  /** The two versions of FindFirst agree wherever the source's is defined. */
  lemma FindFirstAgrees(md: MetadataMap, model: int)
    requires !FindFirstAsWritten(md, model).PastEnd?
    ensures FindFirst(md, model) == FindFirstAsWritten(md, model)
  {
  }

  /** The keys of the tags a key-consistent map lists in order, in that order. */
  ghost function KeysOf(tags: seq<Tag>): (r: seq<string>)
    ensures |r| == |tags|
    ensures forall i :: 0 <= i < |r| ==> r[i] == tags[i].key
  {
    seq(|tags|, i requires 0 <= i < |tags| => tags[i].key)
  }

  lemma TagsInOrderKeys(tm: TagMap)
    requires forall k :: k in tm ==> tm[k].key == k
    ensures KeysOf(TagsInOrder(tm)) == SortedKeys(tm.Keys)
  {
    var ks := SortedKeys(tm.Keys);
    var keys := KeysOf(TagsInOrder(tm));
    forall i | 0 <= i < |keys|
      ensures keys[i] == ks[i]
    {
      assert ks[i] in tm;
    }
  }

  lemma FirstThenDrainIsInOrder(md: MetadataMap, model: int)
    requires Count(md, model) > 0
    ensures var f := FindFirst(md, model);
            [f.tag] + Drain(f.cursor) == TagsInOrder(md[model])
  {
    var f := FindFirst(md, model);
    var all := TagsInOrder(md[model]);
    DrainIsRemainingTags(f.cursor);
    assert Drain(f.cursor) == all[1..];
    assert all == [all[0]] + all[1..];
  }

  /** FindFirst followed by FindNext until it fails yields every tag of the model
      once, in ascending key order: as many tags as the count. */
  lemma IterationVisitsEveryTagOnce(md: MetadataMap, model: int)
    requires WellKeyed(md)
    requires Count(md, model) > 0
    ensures var f := FindFirst(md, model);
            var visited := [f.tag] + Drain(f.cursor);
            && visited == TagsInOrder(md[model])
            && |visited| == Count(md, model)
            && StrictlySorted(KeysOf(visited))
            && (forall k :: k in md[model] <==> k in KeysOf(visited))
  {
    FirstThenDrainIsInOrder(md, model);
    TagsInOrderKeys(md[model]);
  }

  /** The hazard: a rejected tag aimed at an absent model leaves an empty model
      behind, and the source's FindFirstMetadata then reads past its end. */
  lemma FailedSetThenFindFirstReadsPastEnd(md: MetadataMap, model: int, key: string, t: Tag,
                                           width: DataWidth, iptcId: IptcLookup)
    requires model !in md
    requires !Consistent(t, width)
    ensures var r := SetMetadata(md, model, Some(key), Some(t), width, iptcId);
            && !r.ok
            && Count(r.store, model) == 0
            && FindFirstAsWritten(r.store, model) == PastEnd
            && FindFirst(r.store, model) == NoModel
  {
    var r := SetMetadata(md, model, Some(key), Some(t), width, iptcId);
    assert r.store[model] == map[];
  }

  /** Deleting the last key also leaves an empty model behind. */
  lemma DeleteLastTagLeavesEmptyModel(md: MetadataMap, model: int, key: string)
    requires model in md && md[model].Keys == {key}
    ensures var r := SetMetadata(md, model, Some(key), None, _ => 0, _ => 0).store;
            && model in r
            && Count(r, model) == 0
            && FindFirstAsWritten(r, model) == PastEnd
  {
    var r := SetMetadata(md, model, Some(key), None, _ => 0, _ => 0).store;
    assert r[model].Keys == {};
  }

  // ----------------------------------------------------------------------
  // FreeImage_CloneMetadata, on the stores

  /** Every source model except the animation one replaces the destination's
      model of the same id; the other destination models stay. */
  function CopyModels(dst: MetadataMap, src: MetadataMap): (r: MetadataMap)
    ensures forall m :: m in r <==> m in dst || (m in src && m != ModelAnimation)
    ensures forall m :: m in src && m != ModelAnimation ==> r[m] == src[m]
    ensures forall m :: m in dst && (m !in src || m == ModelAnimation) ==> r[m] == dst[m]
  {
    map m | m in dst.Keys + (src.Keys - {ModelAnimation}) ::
      if m in src && m != ModelAnimation then src[m] else dst[m]
  }

  /** Copying twice is copying once, and copying keeps tags keyed correctly. */
  lemma CopyModelsIdempotent(dst: MetadataMap, src: MetadataMap)
    ensures CopyModels(CopyModels(dst, src), src) == CopyModels(dst, src)
    ensures WellKeyed(dst) && WellKeyed(src) ==> WellKeyed(CopyModels(dst, src))
  {
  }
}

=== FILE: wrappers.dfy ===
/** Failure-compatible optional value, used wherever the library passes or returns a
    pointer that may be null. */
module Wrappers {

  datatype Option<+T> = None | Some(value: T)

}

/** The C integer types that appear in the library's signatures. */
module Ints {

  type Byte = x: int | 0 <= x < 0x100
  type UInt16 = x: int | 0 <= x < 0x1_0000
  type UInt32 = x: int | 0 <= x < 0x1_0000_0000
  type Int32 = x: int | -0x8000_0000 <= x < 0x8000_0000

  const TwoTo32: nat := 0x1_0000_0000

}
